=== FILE: README.md ===
# JAX backend of PhiFlow: a Dafny model

This project models the sequential logic of PhiFlow's JAX backend
(`phi/jax/_jax_backend.py`), i.e. the parts of `JaxBackend` that do their own
bookkeeping instead of forwarding straight to `jax.numpy`:

- **Host values** (`host_values.dfy`, module `HostValues`). Every value the
  backend can receive is one `Value` datatype: a native JAX array, a `jnp.bool_`
  scalar, a NumPy array, a Python bool/int/float/complex/str, a tuple or list of
  values, or some other object. On this type the model defines `is_tensor`, the
  dtype inference of `dtype`, the short-cut in `cast`, and the precision
  coercion in `as_tensor`.
- **Batch broadcasting** (`batching.dfy`, module `Batching`). `combined_dim` and
  the per-entry slot `min(b, size-1)`, shared by `batched_gather_nd`
  (`gather.dfy`), `scatter` (`scatter.dfy`) and the batching wrapper of
  `conjugate_gradient` (`linear_solve.dfy`).
- **Scatter with `duplicates_handling='mean'`** (module `Scatter`). It covers
  the policy assertions, the NotImplementedError branches and the
  commented-out `outside_handling`. The mean is a scatter-add of the values, a
  scatter-add of ones, and a division by `max(1, count)`. Values are `real`.
- **`while_loop`** (`control_flow.dfy`, module `ControlFlow`). A method whose loop keeps the
  iteration counter in step with the optional cap.
- **`functional_gradient` output packing** (`gradients.dfy`, module `Gradients`). It covers how
  the user function's result is split into loss and auxiliary outputs, and how
  `(loss, *aux, *grads)` is reassembled. The gradients are an opaque sequence.
- **Argument normalisers** (`shape_ops.dfy`, module `ShapeOps`). These are
  `range`, `pad`, `expand_dims`, `sum` over a list, `prod`, the axis choice of
  `fft`/`ifft`, `tensor_spatial_rank` and `clamp`.
- **Flattened real tensors** (`vectors.dfy`, module `Vectors`). These are the
  shared `Vector` type, the same-length predicate and elementwise addition. Scatter, list sums and the
  solver wrapper all use them.

Error paths are modelled, not excluded. Every operation that can raise returns
a `Result` (module `Results`): the source's own assertions become
`AssertionFailed`, its `raise NotImplementedError()` becomes `NotImplemented`,
and errors the engine raises on the source's behalf become the matching kind.
Examples are stacking an empty list of batch results, indexing an empty tuple,
or `jnp.array` of a string.

Modelling assumptions:

- `combined_dim` is imported from a helper module whose body is not part of
  this model. `Batching.CombinedDim` is an ASSUMED contract. Equal extents give
  that extent, a size-1 side takes the other side's extent, and any other pair
  fails an assertion.
- `scatter` writes `indices[b]` and `values[b]` directly. With a size-1 batch on
  one side, that read goes past the end for `b >= 1`. JAX clamps static
  out-of-range reads to the last slot, so the model reads slot
  `min(b, size-1)`, the same as `batched_gather_nd`.
- `jnp.array`'s inference (`HostValues.Infer`) is engine behaviour. It is
  modelled as follows:
  - strings and foreign objects raise TypeError;
  - ragged nesting raises ValueError;
  - a Python scalar, and a non-empty sequence of the promoted kind of its
    items, gets the 64-bit (complex: 128-bit) type of its kind;
  - with JAX's x64 switch off, every 64-bit (complex: 128-bit) type that
    `jnp.array` would produce or is asked for becomes its 32-bit (64-bit)
    counterpart (`HostValues.Canonical`); NumPy arrays are canonicalised the
    same way when converted;
  - an empty sequence is a float array of shape `[0]`;
  - `from_numpy_dtype` of bool is taken as `DType(bool, 8)`.
- `jax.scipy.sparse.linalg.cg` checks its operator before iterating
  (`LinearSolve.CgOperator`). A function is used as the matrix-vector
  product. An array must be square 2-D, or ValueError is raised. Anything else,
  a list included, raises TypeError. Its iteration is an opaque function
  parameter.
- `to_float` (base class, not part of this model) is taken as a cast to
  `DType(float, precision)`.

Observation (`Gradients.OneElementSequenceDisagrees`): if the user function
returns a one-element tuple, the two modes of `functional_gradient` disagree.
With `get_output=False` the element is differentiated (line 112). With
`get_output=True` the whole tuple is handed to the engine as the loss, because
line 101 splits only sequences of length > 1. `jax.value_and_grad`
differentiates scalar outputs only, so in that mode such a result (and an empty
tuple or list) raises TypeError.

## Model

| member | source | states |
|---|---|---|
| `HostValues.IsTensor` | phi/jax/_jax_backend.py:64-82 | with `only_native`, acceptance is exactly being a JAX array or `jnp.bool_`; otherwise a non-sequence is accepted unless it is a foreign object, and a tuple/list exactly when every item is (characterised by leaves in the next row) |
| `HostValues.IsTensorIffNoForeignLeaf` | phi/jax/_jax_backend.py:65-82 | `is_tensor(x, False)` holds exactly when no leaf of x's tuple/list nesting is a foreign object (reference characterisation, by induction over the nesting) |
| `HostValues.SequenceClassification` | phi/jax/_jax_backend.py:80-81 | a tuple or list is accepted exactly when all items are accepted, so an empty one is accepted; with `only_native` every tuple/list is rejected |
| `HostValues.OnlyNativeIsNativeness` | phi/jax/_jax_backend.py:66-74 | with `only_native`, acceptance is exactly being a JAX array or `jnp.bool_`: NumPy arrays, numbers, strings and lists are rejected |
| `HostValues.DTypeOf` | phi/jax/_jax_backend.py:418-427 | Python int and bool give (int,32), float (float,64), complex (complex,128) whatever the x64 switch; JAX and NumPy arrays report their own dtype unconverted (NumPy arrays are `jnp.ndarray` instances, so line 425 skips `jnp.array`); other values report the dtype `HostValues.Infer` gives (the promoted kind at the engine's default width) and fail exactly when `jnp.array` would |
| `HostValues.BoolReportsInt` | phi/jax/_jax_backend.py:419-420 | a Python bool takes the int branch (int,32), although `jnp.array` would make it a bool array |
| `HostValues.Cast` | phi/jax/_jax_backend.py:311-315 | a native value already of the target dtype is returned unchanged; otherwise the result is a JAX array of the inferred shape whose dtype is the target as the x64 switch canonicalises it (the target itself with x64 on); fails exactly when inference fails |
| `HostValues.Canonical` | phi/jax/_jax_backend.py:315 | the dtype `jnp.array(x, dtype)` produces keeps the kind, is the requested one with x64 on or for bool, and with x64 off never has a 64-bit int/float or 128-bit complex width; widths other than 64/128 are kept |
| `HostValues.Checked` | phi/jax/_jax_backend.py:46-51 | `_check_float64` leaves the precision alone and switches x64 on exactly when it was on already or the precision is 64 |
| `HostValues.CastIdempotent` | phi/jax/_jax_backend.py:311-315 | casting a cast value again to the same dtype returns it unchanged |
| `HostValues.AsTensor` | phi/jax/_jax_backend.py:46-63 | after `_check_float64`: fails exactly when `jnp.array` inference fails; with `convert_external` the result is native; kind and shape are preserved; a non-number float result has the working precision (16, 32 or 64, the last because x64 is switched on); Python numbers pass unchanged when not converting |
| `Batching.CombinedDim` | phi/jax/_jax_backend.py:17 | assumed contract of the imported helper: succeeds exactly for equal extents or a size-1 side; each side is 1 or equals the result |
| `Batching.Slot` | phi/jax/_jax_backend.py:328-329 | `min(b, size-1)` is a valid slot, is `b` on a side of full extent and 0 on a size-1 side |
| `Batching.SlotServesCombined` | phi/jax/_jax_backend.py:325-329 | for every entry of a combined batch, each side has a slot; a full side is read elementwise and a size-1 side at slot 0 |
| `Batching.CombinedDimSymmetric` | phi/jax/_jax_backend.py:449 | combining extents is symmetric, and combining an extent with itself gives it back |
| `Batching.CombinedDimAssociative` | phi/jax/_jax_backend.py:449-452 | the three-way batch extent of the solver does not depend on the order of combination |
| `ControlFlow.WhileLoop` | phi/jax/_jax_backend.py:237-245 | the result is the state after exactly `iterations` body applications, `cond` held before each; either `cond` fails on the result or the cap was reached exactly; a cap `m >= 0` bounds the applications by `m`; cap 0 returns the input |
| `Gradients.SplitAux` | phi/jax/_jax_backend.py:99-101 | a tuple/list longer than 1 splits into loss = head and aux = tail, and reassembling them gives the items back; anything else is the loss as a whole with no aux |
| `Gradients.Unwrap` | phi/jax/_jax_backend.py:104-106 | the packed output starts with the loss, continues with exactly the aux items, ends with the gradients, and has 1 + aux + grads entries |
| `Gradients.GradientWithOutput` | phi/jax/_jax_backend.py:96-107 | with `get_output=True` the engine raises TypeError exactly when the loss handed over is not a scalar, so always for a tuple/list of length 0 or 1; otherwise the output is the user function's items followed by the gradients, or `(result, *grads)` when the result is not a sequence |
| `Gradients.Differentiated` | phi/jax/_jax_backend.py:109-112 | with `get_output=False` the first item of a tuple/list is differentiated (IndexError when empty), any other result as a whole |
| `Gradients.BothModesAgree` | phi/jax/_jax_backend.py:96-113 | for single values and sequences longer than 1, both modes differentiate the same quantity; the packed output exists exactly when that quantity is a scalar, and then the quantity leads it |
| `Gradients.OneElementSequenceDisagrees` | phi/jax/_jax_backend.py:101-112 | for a one-element tuple, `get_output=False` differentiates the element but `get_output=True` uses the whole tuple as the loss and raises |
| `Gather.BatchedGatherNd` | phi/jax/_jax_backend.py:323-331 | fails the assertion unless index width equals the spatial rank; succeeds exactly for combinable, non-empty batches; returns combined-batch-size entries with entry b reading grid `min(b, vb-1)` at index rows `min(b, ib-1)`, a size-1 side reused for every b; with index width 0 each entry is the whole grid (`b_values[()]`) |
| `LinearSolve.OperatorBatch` | phi/jax/_jax_backend.py:451-452 | A contributes a batch extent exactly when it is a list or a rank-3 array, and that extent is `len(A)` or `A.shape[0]` |
| `LinearSolve.CgOperator` | phi/jax/_jax_backend.py:459 | the operator `cg` accepts: a function or a square 2-D array; a list raises TypeError, any other array ValueError |
| `LinearSolve.CgCall` | phi/jax/_jax_backend.py:459 | the checks of one `cg(A, y_, x0_)` call: the operator check, then `x0_` and `y_` of equal length (ValueError), then an array operator of the vectors' size (TypeError) |
| `LinearSolve.BatchedOperatorRejected` | phi/jax/_jax_backend.py:451-459 | an operator that contributes a batch extent is never accepted by `cg` whole |
| `LinearSolve.ConjugateGradient` | phi/jax/_jax_backend.py:446-463 | as written: succeeds exactly for a combinable non-empty batch and a `cg` call whose operator and vector lengths are accepted, so never for a batched A; entry b is `cg(A, y[min(b, bs_y-1)], x0[min(b, bs_x0-1)])` with the whole A; `result` is set to success with -1 iterations after the loop whatever `cg` returned, even when stacking then fails, and is left alone when `cg` raises |
| `LinearSolve.EntryOperator` | phi/jax/_jax_backend.py:451-459 | the operator of entry b: `A[min(b, bs_A-1)]` for a batched list or rank-3 array (the block at that leading index), A itself otherwise |
| `LinearSolve.ConjugateGradientPerEntry` | phi/jax/_jax_backend.py:446-463 | corrected: as above, but entry b solves with its own operator `A[min(b, bs_A-1)]`; succeeds exactly when the batch is combinable, non-empty and every entry's `cg` call (operator and vector lengths) is accepted; unbatched A gives the same entries as the as-written wrapper |
| `LinearSolve.BatchedListDiscrepancy` | phi/jax/_jax_backend.py:446-463 | for a list of two 2x2 matrices and batch-2 y, x0: the batch is 2, the whole list is rejected by `cg`, and every per-entry operator is accepted |
| `Scatter.ScatterAdd` | phi/jax/_jax_backend.py:376-377 | each cell of the scatter-add result is its initial value plus the sum of the update rows addressed to it |
| `Scatter.OnesCountHits` | phi/jax/_jax_backend.py:374-377 | scatter-adding ones gives, in every channel, the number of index rows addressing the cell |
| `Scatter.MeanEntry` | phi/jax/_jax_backend.py:370-381 | each cell of a batch entry holds the sum of the values written there over `max(1, count)` |
| `Scatter.Scatter` | phi/jax/_jax_backend.py:349-383 | unknown policy names fail the assertions; 'add', 'any', 'undefined' raise NotImplementedError; 'mean' succeeds exactly for combinable non-empty batches and yields batch-size planes whose cells are the means of the writes |
| `Scatter.ScatterIgnoresOutside` | phi/jax/_jax_backend.py:351-367 | among accepted `outside_handling` values the result is the same (its code is commented out) |
| `Scatter.UntouchedCellIsZero` | phi/jax/_jax_backend.py:380-381 | a cell no index addresses has sum 0 and mean 0 |
| `Scatter.MeanOfEqualWrites` | phi/jax/_jax_backend.py:370-381 | a cell written `k >= 1` times with the same value holds that value |
| `Scatter.GatherScatterRoundTrip` | phi/jax/_jax_backend.py:317-381 | mean-scattering what was gathered restores the plane at every gathered cell and gives 0 elsewhere |
| `Scatter.MeanOfTwoWrites` | phi/jax/_jax_backend.py:370-381 | writes of 10 and 20 to one cell give 15 there and 0 in an untouched cell |
| `ShapeOps.Arange` | phi/jax/_jax_backend.py:150 | the progression `start + k*delta` whose entries all lie before `limit`, with the next step reaching or passing it |
| `ShapeOps.Range` | phi/jax/_jax_backend.py:147-150 | a single argument n with step d is the progression from 0 towards n (`0 .. n-1` for d = 1, empty for n <= 0); two arguments give the progression from start towards limit; step 0 fails |
| `ShapeOps.Pad` | phi/jax/_jax_backend.py:161-169 | succeeds exactly for the five modes; 'constant' pads with the constant in the value's dtype; other modes map to a NumPy mode whose phi name is the given mode |
| `ShapeOps.PadModeRoundTrip` | phi/jax/_jax_backend.py:167-169 | every NumPy mode is reached from its phi name, `jnp.pad` never receives 'periodic' or 'boundary', and only 'symmetric' and 'reflect' keep their names |
| `ShapeOps.InsertAxis` | phi/jax/_jax_backend.py:302 | one `jnp.expand_dims` succeeds exactly for axes in `[-ndim-1, ndim]`; the new extent-1 axis sits at the position the axis denotes (counted from the end when negative), and removing it gives the shape back |
| `ShapeOps.ExpandDims` | phi/jax/_jax_backend.py:300-303 | `number <= 0` returns the shape unchanged without checking the axis; otherwise the result is the shape with a block of `number` unit extents at the position `axis` denotes, and fails exactly for an out-of-range axis |
| `ShapeOps.FoldSum` | phi/jax/_jax_backend.py:177 | the left fold seeded with `acc` holds, in each entry, acc plus the reference sum over the list |
| `ShapeOps.SumList` | phi/jax/_jax_backend.py:174-177 | fails unless axis is 0, fails for an empty list, otherwise each entry is the sum of that entry over all list elements |
| `ShapeOps.Prod` | phi/jax/_jax_backend.py:180-185 | a bool tensor reduces to a bool that holds exactly when every entry does; an integer tensor to the exact product wrapped into the engine's default int (int32 with x64 off, int64 with it on), to which narrower inputs are promoted first (the exact product when it fits); a float tensor to the reference product of its entries |
| `ShapeOps.WrapInt` | phi/jax/_jax_backend.py:185 | two's-complement wrap-around: the result lies in the signed range of the width, has the same remainder as the input, and equals an input already in range |
| `ShapeOps.WrappedProduct` | phi/jax/_jax_backend.py:185 | multiplying with wrap-around at each step gives the exact product wrapped once |
| `ShapeOps.WrapTimes` | phi/jax/_jax_backend.py:185 | wrapping a factor before multiplying does not change the wrapped product |
| `ShapeOps.ProdWidth` | phi/jax/_jax_backend.py:185 | `jnp.prod` accumulates integers in the engine's default int: int64 exactly when x64 is on, else int32 |
| `ShapeOps.Int32ProductWraps` | phi/jax/_jax_backend.py:185 | int32 `prod([65536, 65536])` is 0 with x64 off and 4294967296 with x64 on |
| `ShapeOps.Int8ProductPromotes` | phi/jax/_jax_backend.py:185 | int8 `prod([16, 16])` is 256 under either setting, since int8 is promoted before multiplying |
| `ShapeOps.ProductZeroIffZeroEntry` | phi/jax/_jax_backend.py:185 | over exact reals, the product is 0 exactly when some entry is 0 |
| `ShapeOps.AllIsBoolProduct` | phi/jax/_jax_backend.py:183-185 | reducing bools with `all` agrees with the numeric product of their 0/1 encoding |
| `ShapeOps.FftAxes` | phi/jax/_jax_backend.py:385-393 | succeeds exactly for `ndims >= 3`, and in all three branches the axes are exactly `1 .. ndims-2` |
| `ShapeOps.IfftAxes` | phi/jax/_jax_backend.py:395-404 | non-complex input fails the assertion; complex input uses the axes of `fft` |
| `ShapeOps.FftSkipsBatchAndChannel` | phi/jax/_jax_backend.py:385-393 | neither the batch axis 0 nor the channel axis is transformed |
| `ShapeOps.SpatialRank` | phi/jax/_jax_backend.py:473-476 | succeeds exactly for more than two dimensions, returning the count between batch and channel |
| `ShapeOps.Clamp` | phi/jax/_jax_backend.py:466-470 | fails the assertion unless width equals `len(shape)`; each coordinate lands in `[0, shape[i]-1]` (for nonempty axes); in-range coordinates are unchanged, negative ones become 0 and too-large ones `shape[i]-1`; the result is a fixed point of clamping |

## Left out

- Batching.CombinedDim: the helper's body is not part of this model. The definition is the assumed contract described above, not the helper's code. A `None` extent is not modelled.
- Scatter.Scatter: in-range indices are a precondition, because out-of-range behaviour belongs to `jax.lax.scatter_add`. Index and update tensors must agree on the row count. The read of slot `min(b, size-1)` relies on JAX clamping static reads. The dimension numbers fix a 2-D plane, so other `shape` ranks are not modelled.
- Gather.BatchedGatherNd: in-range index rows are a precondition (JAX's out-of-range gather is not part of this model). The grid entries are opaque values. `unstack` (base class, not part of this model) is taken to split the index rows into the tuple of their `d` coordinate columns, empty for `d = 0`. Index tensors must have the shape (batch, n, d).
- HostValues.DTypeOf: for a tuple or list, the dtype is the promoted kind at the engine's default width. `jnp.array` instead keeps the width of array items (a list of int8 arrays is int8; float32 arrays stay float32 with x64 on), and this is not modelled.
- HostValues.AsTensor: `jnp.array`'s width choices are simplified to one width per kind and x64 setting (a Python int too large for int32 is not modelled). NumPy scalar types are not modelled. The assertion in `_check_float64` cannot fail once x64 is switched on and is not modelled.
- HostValues.Cast: value conversion of the entries is not modelled; only dtype and shape are. Canonicalisation covers the 64-bit int/float and 128-bit complex types; unsigned types are not modelled.
- ControlFlow.WhileLoop: an uncapped loop that never stops has no result, and the model covers only terminating runs (ghost `bound`). `loop_vars` is one state value; `shape_invariants`, `parallel_iterations`, `back_prop`, `swap_memory` and `name` are ignored by the source and absent here.
- LinearSolve.ConjugateGradient: the numerics of `jax.scipy.sparse.linalg.cg` are an opaque function parameter. Its operator and shape checks are taken from that library's documented behaviour, not from code in this model. A callable operator's output size is not checked, because the callable is opaque. `y` and `x0` are rectangular tensors, with row lengths `n` and `m`. The `callback` argument is unused by the source and absent here.
- ShapeOps.SumList: `+` between list elements is modelled for tensors of one shape; broadcasting between them is not. The non-list branch delegates to `jnp.sum` and is left out.
- ShapeOps.Prod: only the whole-tensor reduction (`axis=None`) is modelled; per-axis `jnp.all`/`jnp.prod` are delegated. Float entries are exact reals, so rounding, overflow to infinity and underflow to 0 are not modelled. Integer products wrap around in the default int after promotion of signed inputs; unsigned dtypes (promoted to the default unsigned int) are not modelled.
- ShapeOps.ProductZeroIffZeroEntry: holds of the exact-real model only. In float32, nonzero entries such as `1e-30, 1e-30` underflow to 0. Integer products can also wrap to 0 with x64 off (`ShapeOps.Int32ProductWraps`).
- ShapeOps.Pad: the padding itself is `jnp.pad`'s. The numeric conversion of the fill value to the value's dtype is not modelled; only the dtype is recorded.
- ShapeOps.Range: only integer ranges; the `dtype` argument and float steps are not modelled.
- ShapeOps.Clamp: the source assigns into `coordinates` in place, which works for NumPy arrays; the model returns the clamped rows.
- `jit_compile` and `custom_gradient`: engine tracing and autodiff with nothing to state beyond the forward/backward tuple shapes.
- Random sampling and key splitting, `list_devices`: randomness and device I/O.
- Gradients.GradientWithOutput: the engine's scalar check is modelled by rank and container only; its dtype check (a non-float loss) is not. `Gradients.Differentiated` states which quantity `jax.grad` receives; the same scalar check on that quantity is not restated there.
- Elementwise and reduction wrappers that forward to `jnp` (`sqrt`, `exp`, `sin`, `divide_no_nan`, `std`, `mean`, `max`, `min`, FFT values, `einsum`, `matmul`, ...): floating-point numerics delegated to the engine.
- `conv`: it refers to an undefined `padding` and assigns in place into JAX arrays, so it has no coherent behaviour to model.
- `sparse_tensor` and `coordinates`: they only raise NotImplementedError.
- phi/geom/_cylinder.py, phi/field/advect.py and phi/flow.py: floating-point geometry, resampling and re-exports outside the backend.

## Findings

| source | as written | input that shows it | evidently intended | confidence | as-written member | corrected member |
|---|---|---|---|---|---|---|
| phi/jax/_jax_backend.py:451-459 | a batched A (a list, or a rank-3 array) widens the batch extent, but every `cg` call receives the whole A, which `cg` rejects | A a list of two 2x2 matrices, y and x0 of shape (2, 2) (`LinearSolve.BatchedListDiscrepancy`) | entry b solves with `A[min(b, bs_A-1)]`, like `y` and `x0` | medium; not executed | `LinearSolve.ConjugateGradient` | `LinearSolve.ConjugateGradientPerEntry` |

=== FILE: batching.dfy ===
/** The batch-broadcasting pattern shared by `batched_gather_nd`, `scatter`
    and `conjugate_gradient`: a combined batch extent is computed from the
    participating leading extents, and batch entry `b` reads slot
    `min(b, size - 1)` of every input, so that a size-1 input is reused for
    every entry. */
module Batching {
  import opened Results

  /** `combined_dim` from the backend helper module. Its body is not part of
      this model; this definition is an ASSUMED contract: equal extents give
      that extent, a size-1 side takes the other side's extent, and any other
      pair fails the helper's assertion. */
  function CombinedDim(a: nat, b: nat): (r: Result<nat>)
    ensures r.Ok? <==> a == b || a == 1 || b == 1
    ensures r.Err? ==> r.error.AssertionFailed?
    ensures r.Ok? ==> r.value == a || r.value == b
    ensures r.Ok? ==> (a == 1 || a == r.value) && (b == 1 || b == r.value)
  {
    if a == 1 then Ok(b)
    else if b == 1 then Ok(a)
    else if a == b then Ok(a)
    else Err(AssertionFailed("incompatible batch dimensions"))
  }

  /** The input slot read for batch entry `b`: Python's `min(b, size - 1)`. */
  function Slot(b: nat, size: nat): (k: nat)
    requires size >= 1
    ensures k < size
    ensures b < size ==> k == b
    ensures size == 1 ==> k == 0
  {
    if b < size - 1 then b else size - 1
  }

  /** Every side of a successful combination can serve every batch entry:
      it has at least one slot, a side of the combined extent is read
      elementwise and a size-1 side is read at slot 0 for every entry. */
  lemma SlotServesCombined(a: nat, c: nat, n: nat, b: nat)
    requires CombinedDim(a, c) == Ok(n)
    requires b < n
    ensures a >= 1
    ensures a == n ==> Slot(b, a) == b
    ensures a == 1 ==> Slot(b, a) == 0
  {
  }

  /** Combining is symmetric, and combining with itself is the identity. */
  lemma CombinedDimSymmetric(a: nat, b: nat)
    ensures CombinedDim(a, b) == CombinedDim(b, a)
    ensures CombinedDim(a, a) == Ok(a)
  {
  }

  /** Combines a possibly failed extent with one more extent. */
  function CombineWith(r: Result<nat>, c: nat): Result<nat>
  {
    if r.Err? then r else CombinedDim(r.value, c)
  }

  /** Three-way combination (used by the linear solver) does not depend on the
      order in which the extents are combined. */
  lemma CombinedDimAssociative(a: nat, b: nat, c: nat)
    ensures CombineWith(CombinedDim(a, b), c).Ok? <==> CombineWith(CombinedDim(b, c), a).Ok?
    ensures CombineWith(CombinedDim(a, b), c).Ok? ==>
              CombineWith(CombinedDim(a, b), c).value == CombineWith(CombinedDim(b, c), a).value
  {
  }
}

=== FILE: control_flow.dfy ===
/** `while_loop` of phi/jax/_jax_backend.py. The loop state (the tuple `loop_vars`) is one
    value of a type parameter; `cond` and `body` are pure functions on it. */
module ControlFlow {
  import opened Results

  /** The state after `n` applications of `body`. */
  function Iterate<S>(body: S -> S, s: S, n: nat): S
    decreases n
  {
    if n == 0 then s else body(Iterate(body, s, n - 1))
  }

  /** Whether an iteration cap is in force: `maximum_iterations` is not None.
      A negative cap is never reached by the counter, so it caps nothing. */
  predicate Capped(maxIterations: Option<int>) {
    maxIterations.Some? && maxIterations.value >= 0
  }

  /** `while_loop(cond, body, loop_vars, maximum_iterations)`: while `cond`
      holds, stop if the counter has reached the cap, else apply `body`.
      `iterations` is the final value of the counter `i`. Without a cap the
      source loop need not terminate; the model covers the runs that do, for
      which `bound` is a number of applications after which `cond` fails. */
  method WhileLoop<S>(cond: S -> bool, body: S -> S, init: S, maxIterations: Option<int>, ghost bound: nat)
    returns (r: S, iterations: nat)
    requires Capped(maxIterations) || !cond(Iterate(body, init, bound))
    ensures r == Iterate(body, init, iterations)
    ensures forall j | 0 <= j < iterations :: cond(Iterate(body, init, j))
    ensures !cond(r) || (Capped(maxIterations) && iterations == maxIterations.value)
    ensures Capped(maxIterations) ==> iterations <= maxIterations.value
    ensures maxIterations == Some(0) ==> r == init
  {
    r := init;
    iterations := 0;
    while cond(r)
      invariant r == Iterate(body, init, iterations)
      invariant forall j | 0 <= j < iterations :: cond(Iterate(body, init, j))
      invariant Capped(maxIterations) ==> iterations <= maxIterations.value
      invariant !Capped(maxIterations) ==> iterations <= bound
      decreases if Capped(maxIterations) then maxIterations.value - iterations else bound - iterations
    {
      if maxIterations.Some? && iterations == maxIterations.value {
        break;
      }
      r := body(r);
      iterations := iterations + 1;
    }
  }
}

=== FILE: gather.dfy ===
/** `batched_gather_nd` of phi/jax/_jax_backend.py. `values` has shape
    (batch, *spatial, channel) and `indices` has shape (batch, n, d): each
    batch entry reads `n` grid points, each addressed by `d` coordinates
    (`d` is 0 when values carry no spatial axes). */
module Gather {
  import opened Results
  import opened Batching

  /** A batch of grids over the same spatial extent. A grid maps a spatial
      index to the value stored there (the channel vector). */
  datatype GridBatch<T> = GridBatch(spatial: seq<nat>, grids: seq<seq<int> -> T>)

  /** An index tensor of shape (batch, count, width). */
  datatype IndexBatch = IndexBatch(width: nat, count: nat, rows: seq<seq<seq<int>>>)

  /** The index tensor is rectangular. */
  predicate WellShaped(ix: IndexBatch) {
    forall b | 0 <= b < |ix.rows| ::
      |ix.rows[b]| == ix.count && forall k | 0 <= k < |ix.rows[b]| :: |ix.rows[b][k]| == ix.width
  }

  /** A spatial index that lies inside the grid. */
  predicate InGrid(p: seq<int>, spatial: seq<nat>) {
    |p| == |spatial| && forall d | 0 <= d < |p| :: 0 <= p[d] < spatial[d]
  }

  /** Every index row addresses a point inside the grid. */
  predicate AllInGrid(ix: IndexBatch, spatial: seq<nat>) {
    forall b, k | 0 <= b < |ix.rows| && 0 <= k < |ix.rows[b]| :: InGrid(ix.rows[b][k], spatial)
  }

  /** What one batch entry of the gather yields. `self.unstack(idx, -1)`
      splits the (n, d) index rows into a tuple of `d` coordinate columns, and
      `b_values[tuple]` reads the `n` addressed points. With `d = 0` (values
      of shape (batch, channel)) the tuple is empty and `b_values[()]` is the
      whole grid, its one value at the empty spatial index. */
  datatype Gathered<T> = Points(items: seq<T>) | Whole(value: T)

  /** The batch extent `batched_gather_nd` produces, when it returns. */
  function GatherBatch<T>(values: GridBatch<T>, indices: IndexBatch): Result<nat> {
    CombinedDim(|values.grids|, |indices.rows|)
  }

  /** `batched_gather_nd(values, indices)`: asserts that the index width is
      the spatial rank, combines the batch extents, and for each batch entry
      `b` reads grid `min(b, vb-1)` at the index rows of slot `min(b, ib-1)`
      (the whole grid when the width is 0); the per-entry results are
      stacked, which fails for an empty batch. */
  method BatchedGatherNd<T>(values: GridBatch<T>, indices: IndexBatch) returns (r: Result<seq<Gathered<T>>>)
    requires WellShaped(indices)
    requires indices.width == |values.spatial| ==> AllInGrid(indices, values.spatial)
    ensures indices.width != |values.spatial| ==> r.Err? && r.error.AssertionFailed?
    ensures r.Ok? <==> indices.width == |values.spatial| && GatherBatch(values, indices).Ok? && GatherBatch(values, indices).value > 0
    ensures r.Ok? ==> |r.value| == GatherBatch(values, indices).value
    ensures r.Ok? && indices.width >= 1 ==> forall b | 0 <= b < |r.value| ::
              r.value[b].Points? && |r.value[b].items| == indices.count &&
              forall k | 0 <= k < indices.count ::
                r.value[b].items[k] == values.grids[Slot(b, |values.grids|)](indices.rows[Slot(b, |indices.rows|)][k])
    ensures r.Ok? && indices.width == 0 ==> forall b | 0 <= b < |r.value| ::
              r.value[b] == Whole(values.grids[Slot(b, |values.grids|)]([]))
    ensures r.Ok? && indices.width >= 1 && |values.grids| == 1 ==>
              forall b, k | 0 <= b < |r.value| && 0 <= k < indices.count ::
                r.value[b].items[k] == values.grids[0](indices.rows[Slot(b, |indices.rows|)][k])
    ensures r.Ok? && indices.width >= 1 && |indices.rows| == 1 ==>
              forall b, k | 0 <= b < |r.value| && 0 <= k < indices.count ::
                r.value[b].items[k] == values.grids[Slot(b, |values.grids|)](indices.rows[0][k])
  {
    if indices.width != |values.spatial| {
      return Err(AssertionFailed("index width must equal the spatial rank of values"));
    }
    var batch :- GatherBatch(values, indices);
    var vb, ib := |values.grids|, |indices.rows|;
    var results: seq<Gathered<T>> := [];
    var b := 0;
    while b < batch
      invariant 0 <= b <= batch
      invariant |results| == b
      invariant indices.width >= 1 ==> forall j | 0 <= j < b ::
                  results[j].Points? && |results[j].items| == indices.count &&
                  forall k | 0 <= k < indices.count ::
                    results[j].items[k] == values.grids[Slot(j, vb)](indices.rows[Slot(j, ib)][k])
      invariant indices.width == 0 ==> forall j | 0 <= j < b ::
                  results[j] == Whole(values.grids[Slot(j, vb)]([]))
    {
      SlotServesCombined(vb, ib, batch, b);
      CombinedDimSymmetric(vb, ib);
      SlotServesCombined(ib, vb, batch, b);
      var grid := values.grids[Slot(b, vb)];
      var rows := indices.rows[Slot(b, ib)];
      var entry := if indices.width == 0 then Whole(grid([]))
                   else Points(seq(|rows|, k requires 0 <= k < |rows| => grid(rows[k])));
      results := results + [entry];
      b := b + 1;
    }
    if batch == 0 {
      return Err(ValueError("need at least one array to stack"));
    }
    return Ok(results);
  }
}

=== FILE: gradients.dfy ===
/** How `functional_gradient` of phi/jax/_jax_backend.py splits the user
    function's result into loss and auxiliary outputs, and how it reassembles
    `(loss, *aux, *grads)`. The gradients are an opaque sequence supplied by
    the engine. */
module Gradients {
  import opened Results
  import opened HostValues

  /** What `aux_f` hands the engine: the loss and, if any, the auxiliary
      outputs (`None` when there are none). */
  datatype Split = Split(loss: Value, aux: Option<seq<Value>>)

  /** `aux_f` (`get_output=True`): a tuple or list of length > 1 is split
      into its head and the rest; any other result, including a sequence of
      length 0 or 1, is the loss as a whole. */
  function SplitAux(result: Value): (s: Split)
    ensures IsSequence(result) && |result.items| > 1 ==>
              s.aux.Some? && [s.loss] + s.aux.value == result.items
    ensures !(IsSequence(result) && |result.items| > 1) ==> s == Split(result, None)
  {
    if IsSequence(result) && |result.items| > 1 then Split(result.items[0], Some(result.items[1..]))
    else Split(result, None)
  }

  /** `unwrap_outputs`: `(loss, *aux, *grads)`, or `(loss, *grads)` when
      there is no auxiliary output. */
  function Unwrap(s: Split, grads: seq<Value>): (out: seq<Value>)
    ensures |out| == 1 + (if s.aux.Some? then |s.aux.value| else 0) + |grads|
    ensures out[0] == s.loss
    ensures s.aux.Some? ==> out[1..1 + |s.aux.value|] == s.aux.value
    ensures out[|out| - |grads|..] == grads
  {
    if s.aux.Some? then [s.loss] + s.aux.value + grads else [s.loss] + grads
  }

  /** The engine differentiates scalar outputs only: a tuple or list, or an
      array of rank > 0, makes `jax.value_and_grad` and `jax.grad` raise
      TypeError. */
  predicate NonScalar(loss: Value) {
    IsSequence(loss) || ((loss.JaxArray? || loss.NumpyArray?) && |loss.shape| > 0)
  }

  /** The output of the gradient function with `get_output=True`: the user
      function's outputs come back unchanged, followed by the gradients,
      unless the loss `aux_f` hands over is not a scalar. A result that is
      not a sequence of length > 1 is the loss as a whole, so a tuple or list
      of length 0 or 1 always raises. */
  function GradientWithOutput(result: Value, grads: seq<Value>): (r: Result<seq<Value>>)
    ensures r.Err? <==> NonScalar(SplitAux(result).loss)
    ensures r.Err? ==> r.error.TypeError?
    ensures IsSequence(result) && |result.items| <= 1 ==> r.Err?
    ensures IsSequence(result) && |result.items| > 1 && !NonScalar(result.items[0]) ==>
              r == Ok(result.items + grads)
    ensures !IsSequence(result) && !NonScalar(result) ==> r == Ok([result] + grads)
  {
    var s := SplitAux(result);
    if NonScalar(s.loss) then Err(TypeError("gradient only defined for scalar-output functions"))
    else Ok(Unwrap(s, grads))
  }

  /** The quantity `nonaux_f` (`get_output=False`) differentiates: the first
      element of any tuple or list, which raises IndexError when it is empty,
      else the whole result. */
  function Differentiated(result: Value): (r: Result<Value>)
    ensures IsSequence(result) && |result.items| == 0 ==> r.Err? && r.error.IndexError?
    ensures IsSequence(result) && |result.items| > 0 ==> r == Ok(result.items[0])
    ensures !IsSequence(result) ==> r == Ok(result)
  {
    if IsSequence(result) then
      if |result.items| == 0 then Err(IndexError("tuple index out of range")) else Ok(result.items[0])
    else Ok(result)
  }

  /** The two settings of `get_output` differentiate the same quantity for
      single values and for sequences of length > 1, and when the packed
      output exists the loss leads it. */
  lemma BothModesAgree(result: Value, grads: seq<Value>)
    requires !IsSequence(result) || |result.items| > 1
    ensures Differentiated(result) == Ok(SplitAux(result).loss)
    ensures GradientWithOutput(result, grads).Ok? <==> !NonScalar(Differentiated(result).value)
    ensures GradientWithOutput(result, grads).Ok? ==>
              GradientWithOutput(result, grads).value[0] == Differentiated(result).value
  {
  }

  /** For a one-element tuple or list the two settings disagree:
      `get_output=False` differentiates the element, while `get_output=True`
      hands the whole sequence to the engine as the loss, which raises. */
  lemma OneElementSequenceDisagrees(v: Value, grads: seq<Value>)
    ensures Differentiated(PyTuple([v])) == Ok(v)
    ensures SplitAux(PyTuple([v])).loss == PyTuple([v])
    ensures GradientWithOutput(PyTuple([v]), grads).Err?
  {
  }
}

=== FILE: host_values.dfy ===
/** Host-value classification, dtype inference, `cast` and `as_tensor` of the
    JAX backend (phi/jax/_jax_backend.py). Values the backend can be handed are
    a tagged union: native JAX arrays and bool scalars, NumPy arrays, Python
    numbers and strings, nested tuples/lists, and any other object. Arrays are
    described by their dtype and shape only; their entries play no role in
    these operations. */
module HostValues {
  import opened Results

  /** The kind part of a dtype. Declared in the order of NumPy's promotion. */
  datatype Kind = BoolKind | IntKind | FloatKind | ComplexKind

  /** A dtype: kind plus bit width. */
  datatype DType = DType(kind: Kind, bits: nat)

  /** The dtype a bool array reports. */
  const BoolType := DType(BoolKind, 8)

  /** A value handed to the backend. */
  datatype Value =
    | JaxArray(dtype: DType, shape: seq<nat>)     // a jnp.ndarray that is not a NumPy array
    | BoolScalar(flag: bool)                       // an instance of jnp.bool_
    | NumpyArray(dtype: DType, shape: seq<nat>)
    | PyBool(b: bool)
    | PyInt(i: int)
    | PyFloat(x: real)
    | PyComplex(re: real, im: real)
    | PyStr(s: string)
    | PyTuple(items: seq<Value>)
    | PyList(items: seq<Value>)
    | OtherObject                                  // None, dicts, callables, ...

  /** Values the backend treats as its own native tensors. */
  predicate IsNative(x: Value) {
    x.JaxArray? || x.BoolScalar?
  }

  /** Instances of `numbers.Number` (Python's bool is a subclass of int). */
  predicate IsNumber(x: Value) {
    x.PyBool? || x.PyInt? || x.PyFloat? || x.PyComplex?
  }

  /** Tuples and lists. */
  predicate IsSequence(x: Value) {
    x.PyTuple? || x.PyList?
  }

  /** `is_tensor(x, only_native)`: native arrays are always accepted; with
      `onlyNative` nothing else is; otherwise NumPy arrays, numbers, bools and
      strings are accepted, a tuple or list exactly when all of its items are,
      and any other object is rejected. */
  predicate IsTensor(x: Value, onlyNative: bool): (r: bool)
    ensures onlyNative ==> (r <==> IsNative(x))
    ensures !onlyNative && !IsSequence(x) ==> (r <==> !x.OtherObject?)
    ensures !onlyNative && IsSequence(x) ==> (r <==> forall i | 0 <= i < |x.items| :: IsTensor(x.items[i], false))
    decreases x
  {
    if IsNative(x) then true
    else if onlyNative then false
    else match x
      case PyTuple(items) => forall i | 0 <= i < |items| :: IsTensor(items[i], false)
      case PyList(items) => forall i | 0 <= i < |items| :: IsTensor(items[i], false)
      case OtherObject => false
      case _ => true
  }

  /** The non-sequence values reached through the nesting of tuples and lists,
      in order. */
  function Leaves(x: Value): seq<Value>
    decreases x
  {
    match x
    case PyTuple(items) => LeavesOf(items)
    case PyList(items) => LeavesOf(items)
    case _ => [x]
  }

  function LeavesOf(items: seq<Value>): seq<Value>
    decreases items
  {
    if |items| == 0 then [] else Leaves(items[0]) + LeavesOf(items[1..])
  }

  /** Reference characterisation of `is_tensor(x, False)`: a value is accepted
      exactly when no leaf of its nesting is a foreign object. */
  lemma {:induction false} IsTensorIffNoForeignLeaf(x: Value)
    ensures IsTensor(x, false) <==> OtherObject !in Leaves(x)
    decreases x
  {
    match x
    case PyTuple(items) => ItemsAcceptedIffNoForeignLeaf(items);
    case PyList(items) => ItemsAcceptedIffNoForeignLeaf(items);
    case _ =>
  }

  lemma {:induction false} ItemsAcceptedIffNoForeignLeaf(items: seq<Value>)
    ensures (forall i | 0 <= i < |items| :: IsTensor(items[i], false)) <==> OtherObject !in LeavesOf(items)
    decreases items
  {
    if |items| > 0 {
      IsTensorIffNoForeignLeaf(items[0]);
      ItemsAcceptedIffNoForeignLeaf(items[1..]);
      assert forall i | 1 <= i < |items| :: items[i] == items[1..][i - 1];
    }
  }

  /** A tuple or list is accepted exactly when each item is; in particular an
      empty one is accepted. With `onlyNative` every host value is rejected. */
  lemma SequenceClassification(items: seq<Value>)
    ensures IsTensor(PyList(items), false) <==> forall i | 0 <= i < |items| :: IsTensor(items[i], false)
    ensures IsTensor(PyTuple(items), false) <==> forall i | 0 <= i < |items| :: IsTensor(items[i], false)
    ensures IsTensor(PyList([]), false) && IsTensor(PyTuple([]), false)
    ensures !IsTensor(PyList(items), true) && !IsTensor(PyTuple(items), true)
  {
  }

  /** With `onlyNative`, acceptance is exactly nativeness: NumPy arrays,
      Python numbers, strings, tuples and lists are all rejected. */
  lemma OnlyNativeIsNativeness(x: Value)
    ensures IsTensor(x, true) <==> IsNative(x)
    ensures IsNative(x) ==> IsTensor(x, false)
  {
  }

  /** The engine settings the backend runs under: its working precision and
      JAX's x64 switch (`jax_enable_x64`), which decides the widths
      `jnp.array` may produce. */
  datatype Engine = Engine(precision: nat, x64: bool)

  /** The dtype `jnp.array` produces when asked for `t`: with x64 off, 64-bit
      integers and floats become 32-bit and 128-bit complex numbers 64-bit. */
  function Canonical(t: DType, e: Engine): (c: DType)
    ensures c.kind == t.kind
    ensures e.x64 || t.kind == BoolKind ==> c == t
    ensures !e.x64 && t.kind in {IntKind, FloatKind} && t.bits == 64 ==> c.bits == 32
    ensures !e.x64 && t.kind == ComplexKind && t.bits == 128 ==> c.bits == 64
    ensures !e.x64 && c.kind in {IntKind, FloatKind} ==> c.bits != 64
    ensures !e.x64 && c.kind == ComplexKind ==> c.bits != 128
    ensures t.bits !in {64, 128} ==> c == t
  {
    if e.x64 then t
    else match t.kind
      case IntKind => if t.bits == 64 then DType(IntKind, 32) else t
      case FloatKind => if t.bits == 64 then DType(FloatKind, 32) else t
      case ComplexKind => if t.bits == 128 then DType(ComplexKind, 64) else t
      case BoolKind => t
  }

  /** The dtype `jnp.array` infers for a Python scalar of the given kind: the
      64-bit (128-bit complex) type, canonicalised. */
  function DefaultType(k: Kind, e: Engine): DType {
    match k
    case BoolKind => BoolType
    case IntKind => Canonical(DType(IntKind, 64), e)
    case FloatKind => Canonical(DType(FloatKind, 64), e)
    case ComplexKind => Canonical(DType(ComplexKind, 128), e)
  }

  /** `_check_float64`: a backend with precision 64 switches x64 on. */
  function Checked(e: Engine): (c: Engine)
    ensures c.precision == e.precision
    ensures c.x64 <==> e.x64 || e.precision == 64
  {
    if e.precision == 64 then e.(x64 := true) else e
  }

  /** NumPy's promotion of two kinds: the later kind in the declared order. */
  function Promote(a: Kind, b: Kind): (k: Kind)
    ensures k == a || k == b
  {
    if a == ComplexKind || b == ComplexKind then ComplexKind
    else if a == FloatKind || b == FloatKind then FloatKind
    else if a == IntKind || b == IntKind then IntKind
    else a
  }

  /** The dtype and shape `jnp.array(x)` infers, or the error it raises:
      strings and foreign objects are rejected, and nested sequences must be
      rectangular. An empty sequence is a float array of shape [0]. */
  function Infer(x: Value, e: Engine): Result<(DType, seq<nat>)>
    decreases x
  {
    match x
    case JaxArray(dt, s) => Ok((dt, s))
    case NumpyArray(dt, s) => Ok((Canonical(dt, e), s))
    case BoolScalar(_) => Ok((BoolType, []))
    case PyBool(_) => Ok((BoolType, []))
    case PyInt(_) => Ok((DefaultType(IntKind, e), []))
    case PyFloat(_) => Ok((DefaultType(FloatKind, e), []))
    case PyComplex(_, _) => Ok((DefaultType(ComplexKind, e), []))
    case PyStr(_) => Err(TypeError("strings are not valid array values"))
    case OtherObject => Err(TypeError("not a valid array value"))
    case PyTuple(items) => InferItems(items, e)
    case PyList(items) => InferItems(items, e)
  }

  function InferItems(items: seq<Value>, e: Engine): Result<(DType, seq<nat>)>
    decreases items, 1
  {
    if |items| == 0 then Ok((DefaultType(FloatKind, e), [0]))
    else
      var ks :- InferRows(items, e);
      Ok((DefaultType(ks.0, e), [|items| as nat] + ks.1))
  }

  /** Promoted kind and common shape of the items of a non-empty sequence. */
  function InferRows(items: seq<Value>, e: Engine): Result<(Kind, seq<nat>)>
    requires |items| > 0
    decreases items, 0
  {
    var first :- Infer(items[0], e);
    if |items| == 1 then Ok((first.0.kind, first.1))
    else
      var rest :- InferRows(items[1..], e);
      if first.1 == rest.1 then Ok((Promote(first.0.kind, rest.0), rest.1))
      else Err(ValueError("inhomogeneous shape"))
  }

  /** `jnp.array(x)`: a native array of the inferred dtype and shape. */
  function ToArray(x: Value, e: Engine): (r: Result<Value>)
    ensures r.Ok? <==> Infer(x, e).Ok?
    ensures r.Ok? ==> r.value.JaxArray? && (r.value.dtype, r.value.shape) == Infer(x, e).value
  {
    var inferred :- Infer(x, e);
    Ok(JaxArray(inferred.0, inferred.1))
  }

  /** The dtype of a native value, as `from_numpy_dtype(x.dtype)` reports it. */
  function NativeType(x: Value): DType
    requires IsNative(x)
  {
    if x.JaxArray? then x.dtype else BoolType
  }

  /** `dtype(array)`: Python ints (and bools, a subclass of int) are int32,
      floats float64 and complex numbers complex128, whatever the engine's
      widths; JAX and NumPy arrays (NumPy arrays count as `jnp.ndarray`
      instances) report their own dtype, unconverted; anything else reports
      the dtype `jnp.array` gives it. */
  function DTypeOf(x: Value, e: Engine): (r: Result<DType>)
    ensures x.PyBool? || x.PyInt? ==> r == Ok(DType(IntKind, 32))
    ensures x.PyFloat? ==> r == Ok(DType(FloatKind, 64))
    ensures x.PyComplex? ==> r == Ok(DType(ComplexKind, 128))
    ensures x.JaxArray? ==> r == Ok(x.dtype)
    ensures x.NumpyArray? ==> r == Ok(x.dtype)
    ensures !IsNumber(x) ==> (r.Ok? <==> Infer(x, e).Ok?)
  {
    if x.PyBool? || x.PyInt? then Ok(DType(IntKind, 32))
    else if x.PyFloat? then Ok(DType(FloatKind, 64))
    else if x.PyComplex? then Ok(DType(ComplexKind, 128))
    else if x.NumpyArray? then Ok(x.dtype)
    else
      var inferred :- Infer(x, e);
      Ok(inferred.0)
  }

  /** Python's bool takes the int branch of `dtype`, although `jnp.array`
      would make a bool array of it. */
  lemma BoolReportsInt(b: bool, e: Engine)
    ensures DTypeOf(PyBool(b), e) == Ok(DType(IntKind, 32))
    ensures Infer(PyBool(b), e).value.0 == BoolType
  {
  }

  /** `cast(x, dtype)`: a native value that already has the target dtype is
      returned as it is; anything else is converted by `jnp.array(x, dtype)`,
      which keeps the inferred shape, fails where inference fails, and
      produces the target dtype as the x64 switch canonicalises it. */
  function Cast(x: Value, target: DType, e: Engine): (r: Result<Value>)
    ensures IsNative(x) && NativeType(x) == target ==> r == Ok(x)
    ensures r.Ok? <==> Infer(x, e).Ok?
    ensures r.Ok? ==> IsNative(r.value)
    ensures r.Ok? && !(IsNative(x) && NativeType(x) == target) ==>
              r.value.JaxArray? && r.value.dtype == Canonical(target, e)
    ensures r.Ok? && e.x64 ==> NativeType(r.value) == target
    ensures r.Ok? && r.value.JaxArray? ==> r.value.shape == Infer(x, e).value.1
  {
    if IsTensor(x, true) && NativeType(x) == target then Ok(x)
    else
      var inferred :- Infer(x, e);
      Ok(JaxArray(Canonical(target, e), inferred.1))
  }

  /** Casting is idempotent: re-casting a cast value to the same dtype
      returns it unchanged. */
  lemma CastIdempotent(x: Value, target: DType, e: Engine)
    requires Cast(x, target, e).Ok?
    ensures Cast(Cast(x, target, e).value, target, e) == Cast(x, target, e)
  {
  }

  /** `as_tensor(x, convert_external)`: a value `is_tensor` accepts (with
      `only_native = convert_external`) is kept, anything else goes through
      `jnp.array`; then, unless the result is a Python number, a float-kind
      result is cast to the working precision. `_check_float64` runs first,
      so a 64-bit backend converts with x64 on. */
  function AsTensor(x: Value, convertExternal: bool, e: Engine): (r: Result<Value>)
    ensures r.Ok? <==> Infer(x, Checked(e)).Ok?
    ensures r.Ok? && convertExternal ==> IsNative(r.value)
    ensures r.Ok? ==>
              Infer(r.value, Checked(e)).Ok? &&
              Infer(r.value, Checked(e)).value.0.kind == Infer(x, Checked(e)).value.0.kind
    ensures r.Ok? ==> Infer(r.value, Checked(e)).value.1 == Infer(x, Checked(e)).value.1
    ensures r.Ok? && !IsNumber(r.value) && DTypeOf(r.value, Checked(e)).value.kind == FloatKind && e.precision in {16, 32, 64} ==>
              DTypeOf(r.value, Checked(e)).value.bits == e.precision
    ensures IsNumber(x) && !convertExternal ==> r == Ok(x)
  {
    var e := Checked(e);
    var arr :- if IsTensor(x, convertExternal) then Ok(x) else ToArray(x, e);
    if IsNumber(arr) then Ok(arr)
    else
      var dt :- DTypeOf(arr, e);
      if dt.kind == FloatKind then Cast(arr, DType(FloatKind, e.precision), e) else Ok(arr)
  }
}

=== FILE: linear_solve.dfy ===
/** The batching wrapper of `conjugate_gradient` in phi/jax/_jax_backend.py.
    The numerical solve itself is `jax.scipy.sparse.linalg.cg`, which enters
    the model as an opaque function parameter. */
module LinearSolve {
  import opened Results
  import opened Batching
  import opened Vectors

  /** The linear operator `A`: a tuple or list of operators (one per batch
      entry), an array given by its shape and its entry at each index, or a
      callable computing the matrix-vector product. */
  datatype Operator =
    | OperatorList(items: seq<Operator>)
    | DenseArray(shape: seq<nat>, at: seq<nat> -> real)
    | Callable(name: string)

  /** The leading extent `A` contributes to the batch, if any: a list (or
      tuple) always does, an array only when it has rank 3. */
  function OperatorBatch(a: Operator): (r: Option<nat>)
    ensures r.Some? <==> a.OperatorList? || (a.DenseArray? && |a.shape| == 3)
    ensures a.OperatorList? ==> r == Some(|a.items|)
    ensures a.DenseArray? && |a.shape| == 3 ==> r == Some(a.shape[0])
  {
    match a
    case OperatorList(items) => Some(|items|)
    case DenseArray(shape, _) => if |shape| == 3 then Some(shape[0]) else None
    case Callable(_) => None
  }

  /** The operator check `jax.scipy.sparse.linalg.cg` applies before
      iterating: a callable is used as the product, an array must be square
      2-D (ValueError otherwise), and anything else, a list included, is a
      TypeError. */
  function CgOperator(a: Operator): (r: Result<Operator>)
    ensures r.Ok? <==> a.Callable? || (a.DenseArray? && |a.shape| == 2 && a.shape[0] == a.shape[1])
    ensures r.Ok? ==> r.value == a
    ensures a.OperatorList? ==> r.Err? && r.error.TypeError?
    ensures a.DenseArray? && r.Err? ==> r.error.ValueError?
  {
    match a
    case Callable(_) => Ok(a)
    case DenseArray(shape, _) =>
      if |shape| == 2 && shape[0] == shape[1] then Ok(a)
      else Err(ValueError("expected a square 2-D array"))
    case OperatorList(_) => Err(TypeError("linear operator must be an array or a function"))
  }

  /** A batched operator is never a valid operator for one `cg` call. */
  lemma BatchedOperatorRejected(a: Operator)
    requires OperatorBatch(a).Some?
    ensures CgOperator(a).Err?
  {
  }

  /** One `cg(A, b, x0)` call's argument checks, for a right-hand side of
      length `n` and an initial guess of length `m`: the operator check
      first, then `x0` and `b` must have matching shapes (ValueError), then
      an array operator's product must fit the vectors (a size mismatch
      fails in the matrix-vector product with TypeError). */
  function CgCall(a: Operator, n: nat, m: nat): (r: Result<Operator>)
    ensures r.Ok? <==> CgOperator(a).Ok? && n == m && (a.DenseArray? ==> a.shape[0] == n)
    ensures r.Ok? ==> r.value == a
    ensures CgOperator(a).Err? ==> r == Err(CgOperator(a).error)
    ensures CgOperator(a).Ok? && n != m ==> r.Err? && r.error.ValueError?
    ensures CgOperator(a).Ok? && n == m && a.DenseArray? && a.shape[0] != n ==> r.Err? && r.error.TypeError?
  {
    var op :- CgOperator(a);
    if n != m then Err(ValueError("x0 and b must have matching shapes"))
    else if op.DenseArray? && op.shape[0] != n then Err(TypeError("operator size does not match the vectors"))
    else Ok(op)
  }

  /** The operator of batch entry `b`: `A[min(b, bs_A-1)]` for a batched
      operator, else `A` itself. */
  function EntryOperator(a: Operator, b: nat): (r: Operator)
    ensures OperatorBatch(a).None? ==> r == a
    ensures a.OperatorList? && |a.items| > 0 ==> r == a.items[Slot(b, |a.items|)]
    ensures a.DenseArray? && |a.shape| == 3 && a.shape[0] > 0 ==>
              r.DenseArray? && r.shape == a.shape[1..] &&
              forall i: seq<nat> :: r.at(i) == a.at([Slot(b, a.shape[0])] + i)
  {
    match a
    case OperatorList(items) => if |items| > 0 then items[Slot(b, |items|)] else a
    case DenseArray(shape, at) =>
      if |shape| == 3 && shape[0] > 0 then
        var k := Slot(b, shape[0]);
        DenseArray(shape[1..], i => at([k] + i))
      else a
    case Callable(_) => a
  }

  /** The solver's report. */
  datatype SolveResult = SolveResult(success: bool, iterations: int)

  /** The `LinearSolve` configuration; `result` is the slot the solver fills. */
  datatype SolveParams = SolveParams(
    relativeTolerance: real,
    absoluteTolerance: real,
    maxIterations: int,
    result: Option<SolveResult>)

  /** The batch extent of a solve: that of `y` and `x0`, combined with A's
      leading extent when A is batched. */
  function SolveBatch(a: Operator, y: seq<Vector>, x0: seq<Vector>): Result<nat> {
    var yx :- CombinedDim(|y|, |x0|);
    var ab := OperatorBatch(a);
    if ab.Some? then CombinedDim(yx, ab.value) else Ok(yx)
  }

  /** `conjugate_gradient(A, y, x0, solve_params)` as written: one `cg` call
      per batch entry `b`, on `y[min(b, bs_y-1)]` and `x0[min(b, bs_x0-1)]`
      with the same, whole operator `A`; `n` and `m` are the row lengths of
      `y` and `x0`. `cg` first checks its operator and arguments (`CgCall`)
      and raises on a rejection, leaving `solve_params` untouched; its
      numerics are the opaque `cg`. After the loop
      `solve_params.result` is set to success with iteration count -1,
      whatever `cg` did, and the solutions are stacked, which fails for an
      empty batch. The updated parameter record is returned beside the
      outcome, since the source sets it before stacking. A batched `A`
      widens the batch but is still passed whole, so such a solve never
      returns a solution. */
  method ConjugateGradient(
    a: Operator, y: seq<Vector>, x0: seq<Vector>, n: nat, m: nat, params: SolveParams,
    cg: (Operator, Vector, Vector, real, real, int) -> Vector)
    returns (r: Result<seq<Vector>>, params': SolveParams)
    requires SameLength(y, n) && SameLength(x0, m)
    ensures r.Ok? <==> SolveBatch(a, y, x0).Ok? && SolveBatch(a, y, x0).value > 0 && CgCall(a, n, m).Ok?
    ensures SolveBatch(a, y, x0).Err? ==> r.Err? && r.error.AssertionFailed? && params' == params
    ensures SolveBatch(a, y, x0).Ok? && SolveBatch(a, y, x0).value > 0 && CgCall(a, n, m).Err? ==>
              r == Err(CgCall(a, n, m).error) && params' == params
    ensures SolveBatch(a, y, x0).Ok? && (SolveBatch(a, y, x0).value == 0 || CgCall(a, n, m).Ok?) ==>
              params' == params.(result := Some(SolveResult(true, -1)))
    ensures OperatorBatch(a).Some? && SolveBatch(a, y, x0).Ok? && SolveBatch(a, y, x0).value > 0 ==> r.Err?
    ensures r.Ok? ==> |r.value| == SolveBatch(a, y, x0).value
    ensures r.Ok? ==> forall b | 0 <= b < |r.value| ::
              r.value[b] == cg(a, y[Slot(b, |y|)], x0[Slot(b, |x0|)],
                               params.relativeTolerance, params.absoluteTolerance, params.maxIterations)
    ensures r.Ok? && |x0| == 1 ==> forall b | 0 <= b < |r.value| ::
              r.value[b] == cg(a, y[Slot(b, |y|)], x0[0],
                               params.relativeTolerance, params.absoluteTolerance, params.maxIterations)
  {
    params' := params;
    var yx := CombinedDim(|y|, |x0|);
    if yx.Err? {
      return Err(yx.error), params;
    }
    var batch := yx.value;
    var ab := OperatorBatch(a);
    if ab.Some? {
      var combined := CombinedDim(batch, ab.value);
      if combined.Err? {
        return Err(combined.error), params;
      }
      batch := combined.value;
    }
    assert SolveBatch(a, y, x0) == Ok(batch);
    var results: seq<Vector> := [];
    var b := 0;
    while b < batch
      invariant 0 <= b <= batch
      invariant batch > 0 ==> |y| >= 1 && |x0| >= 1
      invariant b > 0 ==> CgCall(a, n, m).Ok?
      invariant |results| == b
      invariant forall j | 0 <= j < b ::
                  results[j] == cg(a, y[Slot(j, |y|)], x0[Slot(j, |x0|)],
                                   params.relativeTolerance, params.absoluteTolerance, params.maxIterations)
    {
      var op := CgCall(a, n, m);
      if op.Err? {
        if ab.Some? {
          BatchedOperatorRejected(a);
        }
        return Err(op.error), params;
      }
      var x := cg(op.value, y[Slot(b, |y|)], x0[Slot(b, |x0|)],
                  params.relativeTolerance, params.absoluteTolerance, params.maxIterations);
      results := results + [x];
      b := b + 1;
    }
    if ab.Some? && batch > 0 {
      BatchedOperatorRejected(a);
    }
    params' := params.(result := Some(SolveResult(true, -1)));
    if batch == 0 {
      return Err(ValueError("need at least one array to stack")), params';
    }
    return Ok(results), params';
  }

  /** All batch entries pass the operator check. */
  predicate EntriesAccepted(a: Operator, batch: nat, n: nat, m: nat) {
    forall b | 0 <= b < batch :: CgCall(EntryOperator(a, b), n, m).Ok?
  }

  /** `conjugate_gradient` as its batching evidently intends: entry `b`
      solves with its own operator `A[min(b, bs_A-1)]` (the whole `A` when
      it is not batched). Everything else is as in `ConjugateGradient`. */
  method ConjugateGradientPerEntry(
    a: Operator, y: seq<Vector>, x0: seq<Vector>, n: nat, m: nat, params: SolveParams,
    cg: (Operator, Vector, Vector, real, real, int) -> Vector)
    returns (r: Result<seq<Vector>>, params': SolveParams)
    requires SameLength(y, n) && SameLength(x0, m)
    ensures r.Ok? <==> SolveBatch(a, y, x0).Ok? && SolveBatch(a, y, x0).value > 0 &&
                       EntriesAccepted(a, SolveBatch(a, y, x0).value, n, m)
    ensures SolveBatch(a, y, x0).Err? ==> r.Err? && r.error.AssertionFailed? && params' == params
    ensures SolveBatch(a, y, x0).Ok? && !EntriesAccepted(a, SolveBatch(a, y, x0).value, n, m) ==> params' == params
    ensures SolveBatch(a, y, x0).Ok? && EntriesAccepted(a, SolveBatch(a, y, x0).value, n, m) ==>
              params' == params.(result := Some(SolveResult(true, -1)))
    ensures r.Ok? ==> |r.value| == SolveBatch(a, y, x0).value
    ensures r.Ok? ==> forall b | 0 <= b < |r.value| ::
              r.value[b] == cg(EntryOperator(a, b), y[Slot(b, |y|)], x0[Slot(b, |x0|)],
                               params.relativeTolerance, params.absoluteTolerance, params.maxIterations)
    ensures r.Ok? && OperatorBatch(a).None? ==> forall b | 0 <= b < |r.value| ::
              r.value[b] == cg(a, y[Slot(b, |y|)], x0[Slot(b, |x0|)],
                               params.relativeTolerance, params.absoluteTolerance, params.maxIterations)
  {
    params' := params;
    var yx := CombinedDim(|y|, |x0|);
    if yx.Err? {
      return Err(yx.error), params;
    }
    var batch := yx.value;
    var ab := OperatorBatch(a);
    if ab.Some? {
      var combined := CombinedDim(batch, ab.value);
      if combined.Err? {
        return Err(combined.error), params;
      }
      batch := combined.value;
    }
    assert SolveBatch(a, y, x0) == Ok(batch);
    var results: seq<Vector> := [];
    var b := 0;
    while b < batch
      invariant 0 <= b <= batch
      invariant batch > 0 ==> |y| >= 1 && |x0| >= 1
      invariant forall j | 0 <= j < b :: CgCall(EntryOperator(a, j), n, m).Ok?
      invariant |results| == b
      invariant forall j | 0 <= j < b ::
                  results[j] == cg(EntryOperator(a, j), y[Slot(j, |y|)], x0[Slot(j, |x0|)],
                                   params.relativeTolerance, params.absoluteTolerance, params.maxIterations)
    {
      var op := CgCall(EntryOperator(a, b), n, m);
      if op.Err? {
        return Err(op.error), params;
      }
      var x := cg(op.value, y[Slot(b, |y|)], x0[Slot(b, |x0|)],
                  params.relativeTolerance, params.absoluteTolerance, params.maxIterations);
      results := results + [x];
      b := b + 1;
    }
    params' := params.(result := Some(SolveResult(true, -1)));
    if batch == 0 {
      return Err(ValueError("need at least one array to stack")), params';
    }
    return Ok(results), params';
  }

  /** Two identity matrices of size 2, as a list. */
  function TwoIdentities(): Operator {
    var eye := DenseArray([2, 2], i => if |i| == 2 && i[0] == i[1] then 1.0 else 0.0);
    OperatorList([eye, eye])
  }

  /** The discrepancy on a concrete input: a list of two square matrices
      sets the batch extent to 2, is rejected by `cg` when passed whole, and
      yields a valid operator for every entry when sliced. */
  lemma BatchedListDiscrepancy(y: seq<Vector>, x0: seq<Vector>)
    requires |y| == 2 && |x0| == 2 && SameLength(y, 2) && SameLength(x0, 2)
    ensures SolveBatch(TwoIdentities(), y, x0) == Ok(2)
    ensures CgOperator(TwoIdentities()).Err?
    ensures EntriesAccepted(TwoIdentities(), 2, 2, 2)
  {
    var a := TwoIdentities();
    forall b | 0 <= b < 2
      ensures CgCall(EntryOperator(a, b), 2, 2).Ok?
    {
      assert EntryOperator(a, b) == a.items[Slot(b, 2)];
    }
  }
}

=== FILE: results.dfy ===
/** Failure-compatible wrappers for the exceptions the backend raises or lets
    the engine raise. Every operation of the model that can fail returns a
    `Result`, so the error paths of the backend are part of the model rather
    than excluded by preconditions. */
module Results {

  /** The kinds of Python exception the modelled code can raise. */
  datatype Error =
    | AssertionFailed(what: string)
    | NotImplemented(what: string)
    | TypeError(what: string)
    | ValueError(what: string)
    | IndexError(what: string)
    | ZeroDivision(what: string)

  /** The value of a call that either returns or raises. */
  datatype Result<+T> = Ok(value: T) | Err(error: Error) {

    predicate IsFailure() {
      Err?
    }

    function PropagateFailure<U>(): Result<U>
      requires Err?
    {
      Err(error)
    }

    function Extract(): T
      requires Ok?
    {
      value
    }
  }

  /** Python's `None` or a present value. */
  datatype Option<+T> = None | Some(value: T)
}

=== FILE: scatter.dfy ===
/** `scatter` of phi/jax/_jax_backend.py: the policy checks and the
    `duplicates_handling='mean'` path. The dimension numbers the source
    passes to `jax.lax.scatter_add` fix the layout: each index row is a 2-D
    cell `(x, y)` and each update row is the channel vector added there, so
    one batch entry of the output is a plane of shape (nx, ny, channels). */
module Scatter {
  import opened Results
  import opened Batching
  import opened Vectors

  type Cell = (int, int)

  /** Values indexed by x, then y, then channel. */
  type Plane = seq<seq<seq<real>>>

  predicate IsPlane(p: Plane, nx: nat, ny: nat, channels: nat) {
    |p| == nx &&
    forall x | 0 <= x < nx :: |p[x]| == ny && forall y | 0 <= y < ny :: |p[x][y]| == channels
  }

  /** Index rows that all lie inside an nx-by-ny plane. */
  predicate InPlane(idx: seq<Cell>, nx: nat, ny: nat) {
    forall k | 0 <= k < |idx| :: 0 <= idx[k].0 < nx && 0 <= idx[k].1 < ny
  }

  /** How many index rows address cell (x, y). */
  function Hits(idx: seq<Cell>, x: int, y: int): nat
    decreases |idx|
  {
    if |idx| == 0 then 0
    else Hits(idx[..|idx| - 1], x, y) + (if idx[|idx| - 1] == (x, y) then 1 else 0)
  }

  /** The sum of the channel-`c` values written to cell (x, y). */
  function SumAt(idx: seq<Cell>, rows: seq<Vector>, x: int, y: int, c: nat): real
    requires |rows| == |idx|
    requires forall k | 0 <= k < |rows| :: c < |rows[k]|
    decreases |idx|
  {
    if |idx| == 0 then 0.0
    else
      var n := |idx| - 1;
      SumAt(idx[..n], rows[..n], x, y, c) + (if idx[n] == (x, y) then rows[n][c] else 0.0)
  }

  /** `max(1, count)` as a real divisor. */
  function Divisor(count: real): real {
    if count < 1.0 then 1.0 else count
  }

  /** The mean of the values written to a cell: their sum over the number of
      writes, or 0 for a cell nobody writes to. */
  function MeanAt(idx: seq<Cell>, rows: seq<Vector>, x: int, y: int, c: nat): real
    requires |rows| == |idx|
    requires forall k | 0 <= k < |rows| :: c < |rows[k]|
  {
    SumAt(idx, rows, x, y, c) / Divisor(Hits(idx, x, y) as real)
  }

  function Zeros(nx: nat, ny: nat, channels: nat): (p: Plane)
    ensures IsPlane(p, nx, ny, channels)
    ensures forall x, y, c | 0 <= x < nx && 0 <= y < ny && 0 <= c < channels :: p[x][y][c] == 0.0
  {
    seq(nx, x => seq(ny, y => seq(channels, c => 0.0)))
  }

  /** The update tensor of ones, `jnp.ones(values.shape[1:])`. */
  function Ones(n: nat, channels: nat): (rows: seq<Vector>)
    ensures |rows| == n && SameLength(rows, channels)
    ensures forall k, c | 0 <= k < n && 0 <= c < channels :: rows[k][c] == 1.0
  {
    seq(n, k => seq(channels, c => 1.0))
  }

  /** `jax.lax.scatter_add(plane, idx, rows)` with the source's dimension
      numbers: row `k` of the updates is added to cell `idx[k]`, one row
      after the other. */
  function ScatterAdd(plane: Plane, idx: seq<Cell>, rows: seq<Vector>, nx: nat, ny: nat, channels: nat): (r: Plane)
    requires IsPlane(plane, nx, ny, channels)
    requires |rows| == |idx| && SameLength(rows, channels) && InPlane(idx, nx, ny)
    ensures IsPlane(r, nx, ny, channels)
    ensures forall x, y, c | 0 <= x < nx && 0 <= y < ny && 0 <= c < channels ::
              r[x][y][c] == plane[x][y][c] + SumAt(idx, rows, x, y, c)
    decreases |idx|
  {
    if |idx| == 0 then plane
    else
      var n := |idx| - 1;
      var p := ScatterAdd(plane, idx[..n], rows[..n], nx, ny, channels);
      var x, y := idx[n].0, idx[n].1;
      p[x := p[x][y := Add(p[x][y], rows[n])]]
  }

  /** Scattering ones counts the writes to each cell, in every channel. */
  lemma {:induction false} OnesCountHits(idx: seq<Cell>, channels: nat, x: int, y: int, c: nat)
    requires c < channels
    ensures SumAt(idx, Ones(|idx|, channels), x, y, c) == Hits(idx, x, y) as real
    decreases |idx|
  {
    if |idx| > 0 {
      var n := |idx| - 1;
      assert Ones(|idx|, channels)[..n] == Ones(n, channels);
      OnesCountHits(idx[..n], channels, x, y, c);
    }
  }

  /** Elementwise `sums / jnp.maximum(1, counts)`. */
  function DivideByCounts(sums: Plane, counts: Plane, nx: nat, ny: nat, channels: nat): (p: Plane)
    requires IsPlane(sums, nx, ny, channels) && IsPlane(counts, nx, ny, channels)
    ensures IsPlane(p, nx, ny, channels)
    ensures forall x, y, c | 0 <= x < nx && 0 <= y < ny && 0 <= c < channels ::
              p[x][y][c] == sums[x][y][c] / Divisor(counts[x][y][c])
  {
    seq(nx, x requires 0 <= x < nx =>
      seq(ny, y requires 0 <= y < ny =>
        seq(channels, c requires 0 <= c < channels => sums[x][y][c] / Divisor(counts[x][y][c]))))
  }

  /** One batch entry of the mean path: a scatter-add of the values, a
      scatter-add of ones, and the division of the first by the second
      clipped below at 1. Each cell holds the mean of what was written to
      it, and 0 where nothing was. */
  function MeanEntry(idx: seq<Cell>, rows: seq<Vector>, nx: nat, ny: nat, channels: nat): (p: Plane)
    requires |rows| == |idx| && SameLength(rows, channels) && InPlane(idx, nx, ny)
    ensures IsPlane(p, nx, ny, channels)
    ensures forall x, y, c | 0 <= x < nx && 0 <= y < ny && 0 <= c < channels ::
              p[x][y][c] == MeanAt(idx, rows, x, y, c)
  {
    var zeros := Zeros(nx, ny, channels);
    var sums := ScatterAdd(zeros, idx, rows, nx, ny, channels);
    var counts := ScatterAdd(zeros, idx, Ones(|idx|, channels), nx, ny, channels);
    assert forall x, y, c | 0 <= x < nx && 0 <= y < ny && 0 <= c < channels ::
        counts[x][y][c] == Hits(idx, x, y) as real by {
      forall x, y, c | 0 <= x < nx && 0 <= y < ny && 0 <= c < channels
        ensures counts[x][y][c] == Hits(idx, x, y) as real
      {
        OnesCountHits(idx, channels, x, y, c);
      }
    }
    DivideByCounts(sums, counts, nx, ny, channels)
  }

  const DuplicatesPolicies: set<string> := {"undefined", "add", "mean", "any"}
  const OutsidePolicies: set<string> := {"discard", "clamp", "undefined"}

  /** The update tensor, of shape (batch, n, channels). */
  datatype Updates = Updates(channels: nat, rows: seq<seq<Vector>>)

  /** Shapes the source's callers pass: every update row has `channels`
      entries, index and update tensors agree on `n`, and every index lies
      inside the plane (out-of-range handling belongs to `scatter_add`,
      which is not part of this model). */
  predicate WellFormed(indices: seq<seq<Cell>>, values: Updates, nx: nat, ny: nat) {
    (forall b | 0 <= b < |values.rows| :: SameLength(values.rows[b], values.channels)) &&
    (forall b | 0 <= b < |indices| :: InPlane(indices[b], nx, ny)) &&
    (forall b, b' | 0 <= b < |indices| && 0 <= b' < |values.rows| :: |indices[b]| == |values.rows[b']|)
  }

  /** The batch extent of a scatter. */
  function ScatterBatch(indices: seq<seq<Cell>>, values: Updates): Result<nat> {
    CombinedDim(|indices|, |values.rows|)
  }

  /** `scatter(indices, values, shape=(nx, ny), duplicates_handling,
      outside_handling)`. Both policy names are asserted to be known, then
      the batch extents are combined; `'add'`, `'any'` and `'undefined'`
      raise NotImplementedError; `'mean'` stacks one mean plane per batch
      entry, which fails for an empty batch. `outside_handling` is checked but
      otherwise unused. Batch entry `b` reads slot `min(b, size-1)` of
      indices and values: the source writes `indices[b]` and `values[b]`,
      and JAX clamps a static read past the end of a size-1 side to its last
      slot. */
  function Scatter(indices: seq<seq<Cell>>, values: Updates, nx: nat, ny: nat, duplicates: string, outside: string)
    : (r: Result<seq<Plane>>)
    requires WellFormed(indices, values, nx, ny)
    ensures r.Ok? <==>
              duplicates == "mean" && outside in OutsidePolicies &&
              ScatterBatch(indices, values).Ok? && ScatterBatch(indices, values).value > 0
    ensures duplicates !in DuplicatesPolicies || outside !in OutsidePolicies ==> r.Err? && r.error.AssertionFailed?
    ensures duplicates in {"add", "any", "undefined"} && outside in OutsidePolicies && ScatterBatch(indices, values).Ok? ==>
              r.Err? && r.error.NotImplemented?
    ensures r.Ok? ==> |r.value| == ScatterBatch(indices, values).value
    ensures r.Ok? ==> forall b | 0 <= b < |r.value| ::
              IsPlane(r.value[b], nx, ny, values.channels) &&
              forall x, y, c | 0 <= x < nx && 0 <= y < ny && 0 <= c < values.channels ::
                r.value[b][x][y][c] ==
                  MeanAt(indices[Slot(b, |indices|)], values.rows[Slot(b, |values.rows|)], x, y, c)
  {
    if duplicates !in DuplicatesPolicies then Err(AssertionFailed("duplicates_handling"))
    else if outside !in OutsidePolicies then Err(AssertionFailed("outside_handling"))
    else
      var batch :- ScatterBatch(indices, values);
      if duplicates == "add" then Err(NotImplemented("duplicates_handling='add'"))
      else if duplicates == "mean" then
        if batch == 0 then Err(ValueError("need at least one array to stack"))
        else
          var ib, vb := |indices|, |values.rows|;
          Ok(seq(batch, b requires 0 <= b < batch =>
            MeanEntry(indices[Slot(b, ib)], values.rows[Slot(b, vb)], nx, ny, values.channels)))
      else Err(NotImplemented("duplicates_handling=" + duplicates))
  }

  /** `outside_handling` has no effect on the result among the accepted
      policies: its handling code is commented out. */
  lemma ScatterIgnoresOutside(indices: seq<seq<Cell>>, values: Updates, nx: nat, ny: nat, duplicates: string, o1: string, o2: string)
    requires WellFormed(indices, values, nx, ny)
    requires o1 in OutsidePolicies && o2 in OutsidePolicies
    ensures Scatter(indices, values, nx, ny, duplicates, o1) == Scatter(indices, values, nx, ny, duplicates, o2)
  {
  }

  /** A cell no index addresses receives nothing, so its mean is 0. */
  lemma {:induction false} UntouchedCellIsZero(idx: seq<Cell>, rows: seq<Vector>, x: int, y: int, c: nat)
    requires |rows| == |idx|
    requires forall k | 0 <= k < |rows| :: c < |rows[k]|
    requires Hits(idx, x, y) == 0
    ensures SumAt(idx, rows, x, y, c) == 0.0
    ensures MeanAt(idx, rows, x, y, c) == 0.0
    decreases |idx|
  {
    if |idx| > 0 {
      var n := |idx| - 1;
      UntouchedCellIsZero(idx[..n], rows[..n], x, y, c);
    }
  }

  /** When every write to a cell carries the same value, the sum there is that
      value times the number of writes. */
  lemma {:induction false} SumOfEqualWrites(idx: seq<Cell>, rows: seq<Vector>, x: int, y: int, c: nat, v: real)
    requires |rows| == |idx|
    requires forall k | 0 <= k < |rows| :: c < |rows[k]|
    requires forall k | 0 <= k < |idx| && idx[k] == (x, y) :: rows[k][c] == v
    ensures SumAt(idx, rows, x, y, c) == Hits(idx, x, y) as real * v
    decreases |idx|
  {
    if |idx| > 0 {
      var n := |idx| - 1;
      SumOfEqualWrites(idx[..n], rows[..n], x, y, c, v);
    }
  }

  /** A cell written `k >= 1` times with the same value holds that value:
      the mean of equal duplicates is the duplicated value. */
  lemma MeanOfEqualWrites(idx: seq<Cell>, rows: seq<Vector>, x: int, y: int, c: nat, v: real)
    requires |rows| == |idx|
    requires forall k | 0 <= k < |rows| :: c < |rows[k]|
    requires forall k | 0 <= k < |idx| && idx[k] == (x, y) :: rows[k][c] == v
    requires Hits(idx, x, y) >= 1
    ensures MeanAt(idx, rows, x, y, c) == v
  {
    SumOfEqualWrites(idx, rows, x, y, c, v);
    var h := Hits(idx, x, y) as real;
    assert Divisor(h) == h;
    CancelFactor(h, v);
  }

  lemma CancelFactor(h: real, v: real)
    requires h >= 1.0
    ensures (h * v) / h == v
  {
  }

  /** Gather followed by a mean scatter restores the plane at every cell that
      was gathered from at least once, and leaves 0 elsewhere. */
  lemma GatherScatterRoundTrip(g: Plane, idx: seq<Cell>, nx: nat, ny: nat, channels: nat, x: int, y: int, c: nat)
    requires IsPlane(g, nx, ny, channels) && InPlane(idx, nx, ny)
    requires 0 <= x < nx && 0 <= y < ny && c < channels
    ensures
      var rows := seq(|idx|, k requires 0 <= k < |idx| => g[idx[k].0][idx[k].1]);
      MeanAt(idx, rows, x, y, c) == if Hits(idx, x, y) >= 1 then g[x][y][c] else 0.0
  {
    var rows := seq(|idx|, k requires 0 <= k < |idx| => g[idx[k].0][idx[k].1]);
    if Hits(idx, x, y) >= 1 {
      MeanOfEqualWrites(idx, rows, x, y, c, g[x][y][c]);
    } else {
      UntouchedCellIsZero(idx, rows, x, y, c);
    }
  }

  /** Two writes of 10 and 20 to one cell give 15 there and 0 in an untouched
      cell. */
  lemma MeanOfTwoWrites()
    ensures MeanAt([(0, 0), (0, 0)], [[10.0], [20.0]], 0, 0, 0) == 15.0
    ensures MeanAt([(0, 0), (0, 0)], [[10.0], [20.0]], 1, 0, 0) == 0.0
  {
    var idx: seq<Cell> := [(0, 0), (0, 0)];
    var rows: seq<Vector> := [[10.0], [20.0]];
    var idx1, rows1 := idx[..1], rows[..1];
    assert idx1 == [(0, 0)] && rows1 == [[10.0]];
    assert idx1[..0] == [] && rows1[..0] == [];
    assert Hits(idx1, 0, 0) == 1 && SumAt(idx1, rows1, 0, 0, 0) == 10.0;
    assert Hits(idx, 0, 0) == 2 && SumAt(idx, rows, 0, 0, 0) == 30.0;
    assert Divisor(2.0) == 2.0;
    assert Hits(idx1, 1, 0) == 0;
    assert Hits(idx, 1, 0) == 0;
    UntouchedCellIsZero(idx, rows, 1, 0, 0);
  }
}

=== FILE: shape_ops.dfy ===
/** The argument normalisers and small shape operations of
    phi/jax/_jax_backend.py: `range`, `pad`, `expand_dims`, `sum` over a
    list, `prod`, the axis choice of `fft`/`ifft`, `tensor_spatial_rank` and
    `clamp`. Shapes are sequences of extents; tensors whose entries matter
    are flat sequences. */
module ShapeOps {
  import opened Results
  import opened HostValues
  import opened Vectors

  // ---------------------------------------------------------------- range

  /** The number of steps from `start` towards `limit` before passing it. */
  function StepsBefore(start: int, limit: int, delta: int): nat
    requires delta != 0
    decreases if delta > 0 then limit - start else start - limit
  {
    if (delta > 0 && start >= limit) || (delta < 0 && start <= limit) then 0
    else 1 + StepsBefore(start + delta, limit, delta)
  }

  /** `jnp.arange(start, limit, delta)` on integers: the arithmetic
      progression from `start` in steps of `delta` that stops before
      reaching or passing `limit`. */
  function Arange(start: int, limit: int, delta: int): (r: seq<int>)
    requires delta != 0
    ensures |r| == StepsBefore(start, limit, delta)
    ensures forall k | 0 <= k < |r| :: r[k] == start + k * delta
    ensures forall k | 0 <= k < |r| :: if delta > 0 then r[k] < limit else r[k] > limit
    ensures if delta > 0 then start + |r| * delta >= limit else start + |r| * delta <= limit
    decreases if delta > 0 then limit - start else start - limit
  {
    if (delta > 0 && start >= limit) || (delta < 0 && start <= limit) then []
    else
      var rest := Arange(start + delta, limit, delta);
      forall k | 1 <= k < 1 + |rest|
        ensures ([start] + rest)[k] == start + k * delta
      {
        ShiftStep(k - 1, delta);
      }
      ShiftStep(|rest|, delta);
      [start] + rest
  }

  lemma ShiftStep(k: int, delta: int)
    ensures delta + k * delta == (k + 1) * delta
  {
  }

  /** `range(start, limit=None, delta=1)`: a single argument `n` means
      `0 .. n`; a zero step is rejected by `arange`. */
  function Range(start: int, limit: Option<int>, delta: int): (r: Result<seq<int>>)
    ensures r.Err? <==> delta == 0
    ensures limit.None? && delta == 1 ==>
              r.Ok? && |r.value| == (if start > 0 then start else 0) &&
              forall k | 0 <= k < |r.value| :: r.value[k] == k
    ensures limit.None? && delta != 0 ==> r == Ok(Arange(0, start, delta))
    ensures limit.Some? && delta != 0 ==> r == Ok(Arange(start, limit.value, delta))
  {
    if delta == 0 then Err(ZeroDivision("arange step must not be zero"))
    else if limit.None? then
      var r := Arange(0, start, delta);
      if delta == 1 then
        StepsFromZero(start);
        Ok(r)
      else Ok(r)
    else Ok(Arange(start, limit.value, delta))
  }

  lemma {:induction false} StepsFromZero(n: int)
    ensures StepsBefore(0, n, 1) == if n > 0 then n else 0
  {
    StepsCount(0, n);
  }

  lemma {:induction false} StepsCount(s: int, n: int)
    ensures StepsBefore(s, n, 1) == if n > s then n - s else 0
    decreases if n > s then n - s else 0
  {
    if n > s {
      StepsCount(s + 1, n);
    }
  }

  // ------------------------------------------------------------------ pad

  /** The padding modes `jnp.pad` is called with, other than `constant`. */
  datatype NumpyMode = Symmetric | Reflect | Wrap | Edge

  /** What `pad` hands `jnp.pad`: a constant fill already cast to the dtype
      of the padded value, or a named mode. */
  datatype PadCall = ConstantPad(fill: real, fillType: DType) | ModePad(mode: NumpyMode)

  const PadModes: set<string> := {"constant", "symmetric", "periodic", "reflect", "boundary"}

  /** The mode's name on the phi side. */
  function PhiName(m: NumpyMode): string {
    match m
    case Symmetric => "symmetric"
    case Reflect => "reflect"
    case Wrap => "periodic"
    case Edge => "boundary"
  }

  /** The mode's name on the NumPy side. */
  function NumpyName(m: NumpyMode): string {
    match m
    case Symmetric => "symmetric"
    case Reflect => "reflect"
    case Wrap => "wrap"
    case Edge => "edge"
  }

  /** `pad(value, pad_width, mode, constant_values)` up to the `jnp.pad`
      call: the mode is asserted to be one of five; `constant` pads with the
      constant cast to the value's dtype; `periodic` and `boundary` become
      NumPy's `wrap` and `edge`; the others pass through. */
  function Pad(valueType: DType, mode: string, constantValue: real): (r: Result<PadCall>)
    ensures r.Ok? <==> mode in PadModes
    ensures r.Err? ==> r.error.AssertionFailed?
    ensures mode == "constant" ==> r == Ok(ConstantPad(constantValue, valueType))
    ensures r.Ok? && r.value.ModePad? ==> PhiName(r.value.mode) == mode
  {
    if mode !in PadModes then Err(AssertionFailed(mode))
    else if mode == "constant" then Ok(ConstantPad(constantValue, valueType))
    else if mode == "periodic" then Ok(ModePad(Wrap))
    else if mode == "boundary" then Ok(ModePad(Edge))
    else if mode == "symmetric" then Ok(ModePad(Symmetric))
    else Ok(ModePad(Reflect))
  }

  /** Every non-constant NumPy mode is reached from exactly its phi name, and
      `jnp.pad` never sees the phi-only names `periodic` or `boundary`. */
  lemma PadModeRoundTrip(t: DType, m: NumpyMode, v: real)
    ensures Pad(t, PhiName(m), v) == Ok(ModePad(m))
    ensures NumpyName(m) !in {"periodic", "boundary"}
    ensures PhiName(m) == NumpyName(m) <==> m == Symmetric || m == Reflect
  {
  }

  // ---------------------------------------------------------- expand_dims

  /** `jnp.expand_dims(a, axis)` on a shape: a new axis of extent 1 at
      `axis` (counted from the end when negative); axes outside
      `[-ndim-1, ndim]` are rejected. */
  function InsertAxis(shape: seq<nat>, axis: int): (r: Result<seq<nat>>)
    ensures r.Ok? <==> -|shape| - 1 <= axis <= |shape|
    ensures r.Ok? ==> |r.value| == |shape| + 1
    ensures r.Ok? ==>
              var p := if axis >= 0 then axis else axis + |shape| + 1;
              r.value[p] == 1 && r.value[..p] == shape[..p] && r.value[p + 1..] == shape[p..] &&
              r.value[..p] + r.value[p + 1..] == shape
  {
    if axis < -|shape| - 1 || axis > |shape| then Err(ValueError("axis out of range"))
    else
      var p := if axis >= 0 then axis else axis + |shape| + 1;
      Ok(shape[..p] + [1] + shape[p..])
  }

  function UnitAxes(n: nat): (r: seq<nat>)
    ensures |r| == n && forall i | 0 <= i < n :: r[i] == 1
  {
    seq(n, i => 1)
  }

  /** `expand_dims(a, axis, number)`: `number` successive insertions at
      `axis`. The new axes form one block of `number` unit extents at the
      position `axis` denotes in the original shape; the axis is checked only
      when at least one insertion happens. */
  method ExpandDims(shape: seq<nat>, axis: int, number: int) returns (r: Result<seq<nat>>)
    ensures number <= 0 ==> r == Ok(shape)
    ensures number > 0 ==> (r.Ok? <==> -|shape| - 1 <= axis <= |shape|)
    ensures r.Ok? && number > 0 ==>
              var p := if axis >= 0 then axis else axis + |shape| + 1;
              0 <= p <= |shape| && r.value == shape[..p] + UnitAxes(number) + shape[p..]
  {
    if number <= 0 {
      return Ok(shape);
    }
    if axis < -|shape| - 1 || axis > |shape| {
      r := InsertAxis(shape, axis);
      return;
    }
    var p := if axis >= 0 then axis else axis + |shape| + 1;
    var cur := shape;
    var i := 0;
    while i < number
      invariant 0 <= i <= number
      invariant cur == shape[..p] + UnitAxes(i) + shape[p..]
    {
      var next := InsertAxis(cur, axis);
      var q := if axis >= 0 then axis else axis + |cur| + 1;
      assert q == if axis >= 0 then p else p + i;
      cur := next.value;
      assert cur == shape[..p] + UnitAxes(i + 1) + shape[p..];
      i := i + 1;
    }
    return Ok(cur);
  }

  // ------------------------------------------------------------------ sum

  /** Reference sum of entry `i` over all tensors of a list. */
  function EntrySum(vs: seq<Vector>, i: nat): real
    requires forall k | 0 <= k < |vs| :: i < |vs[k]|
  {
    if |vs| == 0 then 0.0 else vs[0][i] + EntrySum(vs[1..], i)
  }

  /** Python's `sum(rest, acc)`: a left fold of `+` seeded with `acc`. */
  function FoldSum(acc: Vector, rest: seq<Vector>): (r: Vector)
    requires SameLength(rest, |acc|)
    ensures |r| == |acc|
    ensures forall i | 0 <= i < |r| :: r[i] == acc[i] + EntrySum(rest, i)
    decreases |rest|
  {
    if |rest| == 0 then acc else FoldSum(Add(acc, rest[0]), rest[1..])
  }

  /** `sum(value, axis)` for a tuple or list of tensors: the axis must be 0,
      and the result folds the tail onto the first element, which fails with
      IndexError for an empty list. Each entry is the sum of that entry over
      the whole list. */
  function SumList(vs: seq<Vector>, n: nat, axis: Option<int>): (r: Result<Vector>)
    requires SameLength(vs, n)
    ensures axis != Some(0) ==> r.Err? && r.error.AssertionFailed?
    ensures axis == Some(0) ==> (r.Ok? <==> |vs| > 0)
    ensures r.Ok? ==> |r.value| == n && forall i | 0 <= i < n :: r.value[i] == EntrySum(vs, i)
  {
    if axis != Some(0) then Err(AssertionFailed("axis must be 0"))
    else if |vs| == 0 then Err(IndexError("list index out of range"))
    else Ok(FoldSum(vs[0], vs[1..]))
  }

  // ----------------------------------------------------------------- prod

  /** The width of an integer dtype. */
  datatype IntWidth = I8 | I16 | I32 | I64

  function Modulus(w: IntWidth): (m: int)
    ensures m > 1
  {
    match w
    case I8 => 0x100
    case I16 => 0x1_0000
    case I32 => 0x1_0000_0000
    case I64 => 0x1_0000_0000_0000_0000
  }

  /** Two's-complement wrap-around of an integer into a signed width. */
  function WrapInt(x: int, w: IntWidth): (r: int)
    ensures -Modulus(w) <= 2 * r < Modulus(w)
    ensures r % Modulus(w) == x % Modulus(w)
    ensures -Modulus(w) <= 2 * x < Modulus(w) ==> r == x
  {
    var m := Modulus(w);
    var k := x % m;
    if 2 * k >= m then
      ModUnique(k - m, -1, k, m);
      k - m
    else k
  }

  /** A flattened tensor: of bool dtype, of a signed integer dtype, or of a
      float dtype (entries as exact reals). */
  datatype Flat = Bools(flags: seq<bool>) | Ints(width: IntWidth, values: seq<int>) | Floats(entries: seq<real>)

  /** A reduced value. */
  datatype Reduced = BoolOf(flag: bool) | IntOf(i: int) | FloatOf(x: real)

  /** Reference product of real entries, right to left. */
  function Product(xs: seq<real>): real {
    if |xs| == 0 then 1.0 else xs[0] * Product(xs[1..])
  }

  /** Exact product of integer entries. */
  function IntProduct(xs: seq<int>): int {
    if |xs| == 0 then 1 else xs[0] * IntProduct(xs[1..])
  }

  /** The product the engine computes in a fixed integer width: each
      multiplication wraps around. */
  function WrappedProduct(xs: seq<int>, w: IntWidth): (r: int)
    ensures r == WrapInt(IntProduct(xs), w)
  {
    if |xs| == 0 then WrapInt(1, w)
    else
      var rest := WrappedProduct(xs[1..], w);
      WrapTimes(xs[0], IntProduct(xs[1..]), w);
      WrapInt(xs[0] * rest, w)
  }

  /** Wrapping a factor first does not change the wrapped product. */
  lemma WrapTimes(a: int, b: int, w: IntWidth)
    ensures WrapInt(a * WrapInt(b, w), w) == WrapInt(a * b, w)
  {
    var m := Modulus(w);
    var wb := WrapInt(b, w);
    var q := ModDifference(b, wb, m);
    assert a * b == a * wb + a * (q * m) by {
      assert a * (b - wb) == a * b - a * wb;
    }
    assert a * (q * m) == (a * q) * m;
    ModAddMultiple(a * wb, a * q, m);
    WrapDependsOnRemainder(a * wb, a * b, w);
  }

  /** The wrapped value is a function of the remainder alone. */
  lemma WrapDependsOnRemainder(x: int, y: int, w: IntWidth)
    requires x % Modulus(w) == y % Modulus(w)
    ensures WrapInt(x, w) == WrapInt(y, w)
  {
  }

  /** Adding a multiple of the modulus keeps the remainder. */
  lemma ModAddMultiple(x: int, k: int, m: int)
    requires m > 0
    ensures (x + k * m) % m == x % m
  {
    assert x == (x / m) * m + x % m;
    assert (x / m + k) * m == (x / m) * m + k * m;
    ModUnique(x + k * m, x / m + k, x % m, m);
  }

  /** Euclidean remainders are unique. */
  lemma ModUnique(x: int, q: int, r: int, m: int)
    requires m > 0 && 0 <= r < m && x == q * m + r
    ensures x % m == r && x / m == q
  {
    var d := x / m - q;
    assert d * m == r - x % m by {
      assert x == (x / m) * m + x % m;
      assert (x / m) * m - q * m == d * m;
    }
    SmallMultipleIsZero(d, m, r - x % m);
  }

  /** A multiple of `m` strictly between `-m` and `m` has factor 0. */
  lemma SmallMultipleIsZero(d: int, m: int, p: int)
    requires m > 0 && d * m == p && -m < p < m
    ensures d == 0
  {
  }

  /** Two integers with equal remainders differ by a multiple of the modulus. */
  lemma ModDifference(x: int, y: int, m: int) returns (q: int)
    requires m > 0 && x % m == y % m
    ensures x - y == q * m
  {
    q := x / m - y / m;
    assert x == (x / m) * m + x % m;
    assert y == (y / m) * m + y % m;
    assert (x / m) * m - (y / m) * m == q * m;
  }

  function AllOf(flags: seq<bool>): (r: bool)
    ensures r <==> forall i | 0 <= i < |flags| :: flags[i]
  {
    if |flags| == 0 then true else flags[0] && AllOf(flags[1..])
  }

  /** The width `jnp.prod` accumulates integers in: integer inputs narrower
      than the default int are promoted to it first (NumPy's reduction rule),
      and the default int is int64 with x64 on, int32 with it off (where
      wider integer arrays do not exist). */
  function ProdWidth(e: Engine): (w: IntWidth)
    ensures DType(IntKind, if w == I64 then 64 else 32) == DefaultType(IntKind, e)
    ensures e.x64 <==> w == I64
  {
    if e.x64 then I64 else I32
  }

  /** `prod(value)` over all axes: a bool tensor reduces with `all`, any
      other with `jnp.prod`, whose integer product wraps around in the
      engine's default int width. */
  function Prod(v: Flat, e: Engine): (r: Reduced)
    ensures v.Bools? ==> r.BoolOf? && (r.flag <==> forall i | 0 <= i < |v.flags| :: v.flags[i])
    ensures v.Ints? ==> r == IntOf(WrapInt(IntProduct(v.values), ProdWidth(e)))
    ensures v.Ints? && -Modulus(ProdWidth(e)) <= 2 * IntProduct(v.values) < Modulus(ProdWidth(e)) ==>
              r == IntOf(IntProduct(v.values))
    ensures v.Floats? ==> r == FloatOf(Product(v.entries))
  {
    match v
    case Bools(flags) => BoolOf(AllOf(flags))
    case Ints(_, xs) => IntOf(WrappedProduct(xs, ProdWidth(e)))
    case Floats(xs) => FloatOf(Product(xs))
  }

  /** With x64 off, int32 `65536 * 65536` wraps around to 0, a zero product
      without a zero entry; with x64 on it is accumulated in int64 and
      exact. */
  lemma Int32ProductWraps(e: Engine)
    ensures !e.x64 ==> Prod(Ints(I32, [65536, 65536]), e) == IntOf(0)
    ensures e.x64 ==> Prod(Ints(I32, [65536, 65536]), e) == IntOf(0x1_0000_0000)
  {
    assert [65536, 65536][1..] == [65536];
    assert IntProduct([65536, 65536]) == 0x1_0000_0000;
  }

  /** A narrow integer input is promoted before multiplying: int8
      `16 * 16` is 256, not a wrapped 0. */
  lemma Int8ProductPromotes(e: Engine)
    ensures Prod(Ints(I8, [16, 16]), e) == IntOf(256)
  {
    assert [16, 16][1..] == [16];
    assert IntProduct([16, 16]) == 256;
  }

  /** Over exact reals, a zero entry makes the product zero, and a product
      of nonzero entries is nonzero. */
  lemma {:induction false} ProductZeroIffZeroEntry(xs: seq<real>)
    ensures Product(xs) == 0.0 <==> exists i | 0 <= i < |xs| :: xs[i] == 0.0
    decreases |xs|
  {
    if |xs| > 0 {
      ProductZeroIffZeroEntry(xs[1..]);
      assert forall i | 1 <= i < |xs| :: xs[i] == xs[1..][i - 1];
      if Product(xs[1..]) == 0.0 {
        var j :| 0 <= j < |xs[1..]| && xs[1..][j] == 0.0;
        assert xs[j + 1] == 0.0;
      }
    }
  }

  /** 0/1 encoding of bools. */
  function Indicators(flags: seq<bool>): (xs: seq<real>)
    ensures |xs| == |flags|
  {
    seq(|flags|, i requires 0 <= i < |flags| => if flags[i] then 1.0 else 0.0)
  }

  /** Reducing bools with `all` agrees with the numeric product of their 0/1
      encoding: the product is 1 exactly when every flag is set and 0
      otherwise. */
  lemma {:induction false} AllIsBoolProduct(flags: seq<bool>, e: Engine)
    ensures Product(Indicators(flags)) == if Prod(Bools(flags), e).flag then 1.0 else 0.0
    decreases |flags|
  {
    if |flags| > 0 {
      assert Indicators(flags)[1..] == Indicators(flags[1..]);
      AllIsBoolProduct(flags[1..], e);
    }
  }

  // ------------------------------------------------------------- fft axes

  /** The axes `fft` transforms for a tensor of `ndims` dimensions
      (batch, *spatial, channel): `rank = ndims - 2` must be at least 1; rank
      1 uses axis 1, rank 2 uses axes [1, 2], higher ranks `range(1, rank+1)`.
      In every case exactly the spatial axes are transformed. */
  function FftAxes(ndims: nat): (r: Result<seq<nat>>)
    ensures r.Ok? <==> ndims >= 3
    ensures r.Err? ==> r.error.AssertionFailed?
    ensures r.Ok? ==> |r.value| == ndims - 2 && forall k | 0 <= k < |r.value| :: r.value[k] == k + 1
  {
    var rank := ndims - 2;
    if rank < 1 then Err(AssertionFailed("rank >= 1"))
    else if rank == 1 then Ok([1])
    else if rank == 2 then Ok([1, 2])
    else Ok(seq(rank, k => k + 1))
  }

  /** `ifft` first asserts a complex input, then chooses axes as `fft`. */
  function IfftAxes(dtype: DType, ndims: nat): (r: Result<seq<nat>>)
    ensures dtype.kind != ComplexKind ==> r.Err? && r.error.AssertionFailed?
    ensures dtype.kind == ComplexKind ==> r == FftAxes(ndims)
  {
    if dtype.kind != ComplexKind then Err(AssertionFailed("complex input")) else FftAxes(ndims)
  }

  /** The batch axis 0 and the channel axis `ndims - 1` are never
      transformed. */
  lemma FftSkipsBatchAndChannel(ndims: nat)
    requires FftAxes(ndims).Ok?
    ensures 0 !in FftAxes(ndims).value
    ensures ndims - 1 !in FftAxes(ndims).value
  {
  }

  // -------------------------------------------------- tensor_spatial_rank

  /** `tensor_spatial_rank(field)`: the number of dimensions between batch
      and channel, which must be positive. */
  function SpatialRank(shape: seq<nat>): (r: Result<nat>)
    ensures r.Ok? <==> |shape| > 2
    ensures r.Err? ==> r.error.AssertionFailed?
    ensures r.Ok? ==> r.value + 2 == |shape|
  {
    if |shape| - 2 > 0 then Ok(|shape| - 2) else Err(AssertionFailed("channel has no spatial dimensions"))
  }

  // ---------------------------------------------------------------- clamp

  /** `max(0, min(extent - 1, c))`. */
  function ClampCoordinate(c: int, extent: int): int {
    var upper := if c < extent - 1 then c else extent - 1;
    if upper < 0 then 0 else upper
  }

  /** One pass of the loop of `clamp`: axis `axis` of every row clamped. */
  function ClampAxis(rows: seq<seq<int>>, axis: nat, extent: int): (r: seq<seq<int>>)
    requires forall k | 0 <= k < |rows| :: axis < |rows[k]|
    ensures |r| == |rows|
    ensures forall k | 0 <= k < |rows| :: r[k] == rows[k][axis := ClampCoordinate(rows[k][axis], extent)]
  {
    seq(|rows|, k requires 0 <= k < |rows| => rows[k][axis := ClampCoordinate(rows[k][axis], extent)])
  }

  /** `clamp(coordinates, shape)` on coordinates of shape (..., d) flattened
      to rows of `width` entries: asserts `width == len(shape)`, then clamps
      coordinate `i` of every row into `[0, shape[i] - 1]`, one axis after
      the other. */
  method Clamp(coords: seq<seq<int>>, width: nat, shape: seq<int>) returns (r: Result<seq<seq<int>>>)
    requires forall k | 0 <= k < |coords| :: |coords[k]| == width
    ensures r.Ok? <==> width == |shape|
    ensures r.Err? ==> r.error.AssertionFailed?
    ensures r.Ok? ==> |r.value| == |coords|
    ensures r.Ok? ==> forall k | 0 <= k < |coords| :: |r.value[k]| == width
    ensures r.Ok? ==> forall k, i | 0 <= k < |coords| && 0 <= i < width ::
              (shape[i] >= 1 ==> 0 <= r.value[k][i] < shape[i]) &&
              (0 <= coords[k][i] < shape[i] ==> r.value[k][i] == coords[k][i]) &&
              (coords[k][i] < 0 ==> r.value[k][i] == 0) &&
              (shape[i] >= 1 && coords[k][i] >= shape[i] ==> r.value[k][i] == shape[i] - 1)
    ensures r.Ok? ==> forall k, i | 0 <= k < |coords| && 0 <= i < width ::
              ClampCoordinate(r.value[k][i], shape[i]) == r.value[k][i]
  {
    if width != |shape| {
      return Err(AssertionFailed("coordinate width must equal the rank of shape"));
    }
    var cur := coords;
    var i := 0;
    while i < |shape|
      invariant 0 <= i <= |shape|
      invariant |cur| == |coords|
      invariant forall k | 0 <= k < |cur| :: |cur[k]| == width
      invariant forall k, j {:trigger cur[k][j]} | 0 <= k < |cur| && 0 <= j < width ::
                  cur[k][j] == if j < i then ClampCoordinate(coords[k][j], shape[j]) else coords[k][j]
    {
      cur := ClampAxis(cur, i, shape[i]);
      i := i + 1;
    }
    return Ok(cur);
  }
}

=== FILE: vectors.dfy ===
/** Flattened real-valued tensors, shared by the scatter, sum and linear
    solve models. */
module Vectors {
  type Vector = seq<real>

  /** Tensors (or rows) of one common length. */
  predicate SameLength(vs: seq<Vector>, n: nat) {
    forall k | 0 <= k < |vs| :: |vs[k]| == n
  }

  /** Elementwise `+` of two tensors of the same shape. */
  function Add(u: Vector, v: Vector): (w: Vector)
    requires |u| == |v|
    ensures |w| == |u| && forall i | 0 <= i < |w| :: w[i] == u[i] + v[i]
  {
    seq(|u|, i requires 0 <= i < |u| => u[i] + v[i])
  }
}
